=== FILE: README.md ===
# Hotel booking core, modelled in Dafny

This project models the booking availability and lifecycle core of a hotel
management server, an Express/Sequelize application over PostgreSQL. The core
covers:

- the records of the `rooms` and `bookings` tables, with their enumerations,
  column defaults and unique columns;
- the `beforeCreate` hook that generates a booking reference;
- the conflict query the booking controller runs before it creates or
  reschedules a booking;
- the price derivation, which is the nightly rate times the whole days of the
  stay, rounded up;
- the booking controller's create, update and delete requests, which also set
  a room's status to Reserved or Available;
- the room controller's lookup, create, update and delete requests, and its
  available-rooms filter.

The model is split into these files:

| file | module | what it holds |
|---|---|---|
| `wrappers.dfy` | `Wrappers` | `Option`. |
| `rooms.dfy` | `Rooms` | The room record, its defaults and its field-wise update. |
| `bookings.dfy` | `Bookings` | The booking record, its defaults, its field-wise update, and the reference hook. The hook includes decimal rendering, `substring(4)` and `padStart(3, '0')`. |
| `pricing.dfy` | `Pricing` | Nights and total price. |
| `availability.dfy` | `Availability` | The overlap clauses, the conflict set, the no-double-booking invariant and the available-rooms filter. |
| `hotel.dfy` | `Controllers` | The `Hotel` class, which holds both tables as maps keyed by id. Each request is a method that reads and writes them in the controller's order and returns an `Outcome`. |
| `scenarios.dfy` | `Scenarios` | Request sequences against a fresh `Hotel`. |

An `Outcome` is one of:

- `Ok`;
- `NotFound` (the 404 responses);
- `Conflict(ids)` (the 400 response that lists the conflicting bookings);
- `Failed(..)`. This is a create body without a booking reference, a write
  the store refuses (a unique index, a foreign key or the DECIMAL(10,2)
  range), a null room dereferenced in the update path, or missing query dates.

Conventions:

- Dates are instants in milliseconds. Money is in cents, because the columns
  are DECIMAL(10,2).
- `Date.now()` and `Math.random()` are parameters `now` and `random` of the
  create request.
- A request body field counts as given when it is `Some`. In an update body
  the nullable columns are `Option<Option<..>>`: `Some(None)` is a field set
  to null. The controller's own tests on `req.body.roomId` are JavaScript
  truthiness tests, so a null or 0 room id counts as absent for them
  (`Controllers.BodyRoom`) while `booking.update` still writes it.
- A booking's `guestId` and `roomId` are nullable foreign keys
  (`Booking.js:69-73`, created by the `sync` in `server/index.js:49`). The
  store refuses a row whose key names no guest or no room. Deleting a room
  sets `roomId` to null in its bookings (ON DELETE SET NULL). The guests
  table is not written by the core: `Hotel.guests` holds its ids, fixed.

The model reproduces the following behaviour of the code, and proves it where
a contract can state it:

- **Stays are closed ranges and same-day turnover is a conflict.** The three
  clauses are inclusive at both ends, so a stay that starts on the day another
  one ends is refused (`TouchingRangesConflict`, `SameDayTurnoverRefused`).
- **The two controllers filter bookings differently.** The booking controller
  ignores Cancelled and No Show bookings. The available-rooms filter counts
  bookings of every status, so a cancelled booking, which is itself no
  conflict for the booking controller, still hides its room
  (`InactiveBookingHidesRoom`, `CancelledBookingHidesRoom`).
- **Nothing checks the order of the dates.** No request checks that
  check-out follows check-in, so the night count and the price can be zero or
  negative (`NightsPositiveIff`, `TotalPrice`).
- **A successful create keeps rooms free of double bookings.** This holds when
  every stay ends no earlier than it starts (the `CreateBooking` contract,
  `StorePreservesNoDoubleBooking`). The clauses are one-sided for a reversed
  range: a booking stored as [day 10, day 0] does not block [day 5, day 5],
  and the room ends up double booked (`ReversedDatesDoubleBook`). A move onto
  that room is not blocked either (`MoveOntoReversedStayDoubleBooks`). The
  reversed stay is charged a negative price.
- **A status-only update skips the re-check.** The re-check runs only when the
  body carries a date or a room id. Setting a cancelled booking back to
  Confirmed therefore succeeds even after another stay has taken its dates
  (`ReactivationDoubleBooks`). For this reason the no-double-booking
  invariant is stated per request and not kept in `Hotel.Valid()`.
- **A move to a missing room leaves the room statuses inconsistent.** The
  update fails only after the status writes for the move. The old room is
  left Available while the booking still holds it
  (`MoveToMissingRoomFreesOldRoom`).
- **A body without a reference is refused.** Validation of the not-null
  `bookingReference` column runs before the `beforeCreate` hook, so the hook
  generates a reference only for an empty one (`MissingReferenceRefused`).
- **References generated in different milliseconds can coincide.** The hook
  drops the first four digits of the timestamp and does no collision check,
  so two timestamps can give the same reference. The unique index is the
  only guard, and the model turns a clash into a refused insert
  (`GeneratedReferenceCollision`, `StoreAccepts`).
- **The guest is checked only by the store.** Create looks up the room but
  not the guest; an unknown `guestId` breaks the foreign key and the insert
  is refused (`UnknownGuestRefused`). On update the same refusal comes after
  the room writes.
- **The reference is not protected.** `booking.update(req.body)` writes
  `bookingReference` like any other column (`PatchReference`).
- **A deleted room's bookings survive without a room.** An update that then
  touches their dates fails when the price is recomputed
  (`DeletedRoomDetachesBooking`).
- **An update body can detach a booking from its room.** `roomId: null` is
  falsy, so neither the re-check nor the move runs and no room status is
  written, but the null is stored: the room stays Reserved while no booking
  holds it, and its dates can be booked again (`NullRoomBodyDetaches`). With a
  date in the body the re-check and the price use the stored room, yet the
  null is still written (`RecheckedRowIsRepriced`).
- **A create body may carry `roomId: null`.** The conflict query then matches
  the bookings that have no room (`roomId IS NULL`); when it finds none,
  `findByPk(null)` finds no room and the answer is 404 (`NullRoomCreate`).

## Model

| member | source | states |
|---|---|---|
| Rooms.NewRoom | server/models/Room.js:23-60 | A created room keeps the supplied values. Absent columns take the declared defaults: capacity 1, status Available, wifi, TV and air-con on, balcony off. |
| Rooms.ApplyRoomPatch | server/controllers/roomController.js:50 | `room.update(body)` overwrites every column the body carries and keeps every other column. |
| Rooms.RoomPatchTwiceIsPatchOnce | server/controllers/roomController.js:50 | Writing the same room body twice gives the same row as writing it once. |
| Rooms.StatusOnlyPatch | server/controllers/roomController.js:50 | A room update whose body carries only a status changes that status and no other column. This is how a room is put into Maintenance. |
| Rooms.EmptyRoomPatchKeepsRoom | server/controllers/roomController.js:50 | A room update with an empty body leaves the row unchanged. |
| Rooms.StoreKeepsRoomNumbersUnique | server/models/Room.js:10-14 | Writing a room whose number no other row holds keeps room numbers unique. |
| Bookings.DecimalStringRoundTrip | server/models/Booking.js:60-61 | The decimal rendering used for the timestamp and the random number reads back as the number it renders. |
| Bookings.PadStart | server/models/Booking.js:61 | `padStart` returns at least `width` characters. The original string is the suffix and every added character is the fill. |
| Bookings.Pad3Digits | server/models/Booking.js:61 | For a random number below 1000, the suffix is exactly three decimal digits and reads back as that number. |
| Bookings.GeneratedReference | server/models/Booking.js:59-62 | A generated reference starts with "BK-" and has at least seven characters. |
| Bookings.AssignReference | server/models/Booking.js:56-63 | A non-empty supplied reference is kept. An empty one (falsy) is replaced by exactly the reference generated from the clock and the drawn number. The result is never empty. An absent one never reaches the hook on a create (see `Controllers.Hotel.CreateBooking`). |
| Bookings.GeneratedReferenceShape | server/models/Booking.js:59-62 | A generated reference is "BK-", then the timestamp digits from index 4, then "-", then three digits that read back as the random number. |
| Bookings.GeneratedReferenceDetermines | server/models/Booking.js:59-62 | Two equal generated references have the same random number and the same timestamp tail. |
| Bookings.GeneratedReferenceCollision | server/models/Booking.js:56-63 | Clock readings a1·10^k and a2·10^k, with a1 and a2 different four-digit numbers, generate the same reference for the same drawn value, so the hook alone does not make references unique. |
| Bookings.NewBooking | server/controllers/bookingController.js:90-93 | A created booking takes the computed price whatever price the body carried. It keeps the body's guest, room (null included), dates, payment method and special requests. Absent columns take 1 guest, Pending and Confirmed. Its reference is the one the hook assigns, and is never empty. |
| Bookings.ApplyPatch | server/controllers/bookingController.js:196 | `booking.update(body)` overwrites every column the body carries, a null `roomId` or `guestId` included, and keeps every other column. |
| Bookings.PatchTwiceIsPatchOnce | server/controllers/bookingController.js:196 | Writing the same booking body twice gives the same row as writing it once. |
| Bookings.PatchReference | server/controllers/bookingController.js:196 | An update keeps the booking reference exactly when its body carries none or the same one. |
| Bookings.StoreKeepsReferencesUnique | server/models/Booking.js:47-51 | Writing a booking whose reference no other row holds keeps references unique. |
| Bookings.DetachRoom | server/models/Booking.js:70 | After a room is deleted, no booking names it; the bookings that did lose their room and nothing else; every other booking is untouched. |
| Pricing.Nights | server/controllers/bookingController.js:83-85 | The night count is the ceiling of the stay's length in days: the whole number n with (n-1) days < length <= n days. |
| Pricing.NightsUnique | server/controllers/bookingController.js:85 | No other whole number satisfies that bracketing, so the count is determined by it. |
| Pricing.NightsOfWholeDays | server/controllers/bookingController.js:85 | A stay of exactly k days is charged k nights. |
| Pricing.PartialDayChargedInFull | server/controllers/bookingController.js:85 | A stay of k days plus any part of a day is charged k + 1 nights. |
| Pricing.NightsPositiveIff | server/controllers/bookingController.js:83-87 | At least one night is charged exactly when check-out is after check-in. The server does not enforce this. |
| Pricing.TotalPrice | server/controllers/bookingController.js:83-87 | At a positive rate the price is positive exactly when check-out is after check-in. At a non-negative rate a stay that does not end after it starts costs zero or less. |
| Pricing.ThreeNightsAtOneHundred | server/controllers/bookingController.js:83-87 | Three whole days at 100.00 a night cost 300.00. |
| Availability.Overlaps | server/controllers/bookingController.js:50-63 | For ordered ranges, the three clauses hold exactly when neither range ends before the other starts. |
| Availability.ConflictIds | server/controllers/bookingController.js:47-68 | The conflict set holds only stored bookings on the requested room that are neither Cancelled nor No Show, and never the excluded booking. |
| Availability.ConflictIffSharedInstant | server/controllers/bookingController.js:47-68 | For an ordered stored stay and an ordered range, a booking is in the conflict set exactly when it is on the room, is neither Cancelled nor No Show, is not the excluded booking, and shares an instant with the range. |
| Availability.TouchingRangesConflict | server/controllers/bookingController.js:50-63 | A stay ending on the requested check-in day conflicts, and so does a stay starting on the requested check-out day. |
| Availability.EnclosureConflicts | server/controllers/bookingController.js:57-62 | A stay enclosing the requested range conflicts, and so does one the range encloses. |
| Availability.OverlapsIffShareInstant | server/controllers/bookingController.js:50-63 | For ordered ranges, the three clauses hold exactly when the closed ranges share an instant. |
| Availability.OverlapsSymmetric | server/controllers/bookingController.js:50-63 | For ordered ranges, it does not matter which range is stored and which is requested. |
| Availability.ReversedRangeAsymmetric | server/controllers/bookingController.js:50-63 | For a reversed range the clauses are not symmetric. |
| Availability.NoDoubleBookingNoSharedInstant | server/controllers/bookingController.js:47-75 | Under the invariant and with ordered stays, no instant lies within two active bookings of the same room. |
| Availability.StorePreservesNoDoubleBooking | server/controllers/bookingController.js:70-93 | Storing a booking keeps every room free of double bookings when the query for its room and dates (excluding itself) finds nothing, or when the booking is inactive. All stays must be ordered. |
| Availability.StoreLoneRoomPreservesNoDoubleBooking | server/controllers/bookingController.js:196 | Storing a booking with no room, or with a room no other row holds, keeps rooms free of double bookings whatever its dates and status. |
| Availability.StoreSameSchedulePreservesNoDoubleBooking | server/controllers/bookingController.js:122-196 | Rewriting a booking without touching its room or dates keeps rooms free of double bookings, unless it turns an inactive booking active. |
| Availability.RemovePreservesNoDoubleBooking | server/controllers/bookingController.js:227 | Removing a booking keeps rooms free of double bookings, whatever the order of the stays, and keeps ordered stays ordered. |
| Availability.DetachPreservesNoDoubleBooking | server/controllers/roomController.js:67 | Deleting a room, which nulls its bookings' room, keeps rooms free of double bookings, whatever the order of the stays, and keeps ordered stays ordered. |
| Availability.AvailableRoomIds | server/controllers/roomController.js:85-113 | The filter returns only existing Available rooms. A booking of any status whose stay overlaps the range excludes its room. An Available room that no booking overlaps is returned. |
| Availability.AvailableRoomIsBookable | server/controllers/roomController.js:85-113 | Every room the available-rooms filter returns exists and is Available. The booking controller reports no conflict for it on the same dates. |
| Availability.InactiveBookingHidesRoom | server/controllers/roomController.js:89-113 | For any tables and range, a Cancelled or No Show booking that overlaps the range is not a conflict for the booking controller, yet its room is not returned by the filter. |
| Availability.CancelledBookingHidesRoom | server/controllers/roomController.js:89-113 | For any tables, a cancelled booking that still has a room is itself no conflict for the booking controller on its own dates, whatever their order, but hides its room from the filter for those dates. |
| Controllers.MarkStatus | server/controllers/bookingController.js:163-166 | Setting a room's status after `findByPk` changes only that room, and only its status. A null or missing room writes nothing. |
| Controllers.BodyRoom | server/controllers/bookingController.js:122-127 | The body carries a room id for the controller's tests exactly when `roomId` is present, not null and not 0, and then it is the body's value. |
| Controllers.RoomsAfterUpdate | server/controllers/bookingController.js:161-193 | The room writes of an update add and remove no room, change only statuses, and touch only the booking's room and the truthy room the body names. |
| Controllers.PricedPatch | server/controllers/bookingController.js:175-184 | The body written differs from the request body at most in its price. After a re-check that finds the effective room, the price is that room's rate times the effective nights. Otherwise the body is written as sent. |
| Controllers.RecheckedRowIsRepriced | server/controllers/bookingController.js:175-196 | After a re-check, the stored row has the effective dates and its price is the effective room's rate times the nights, whatever price the body carried. The row holds the effective room too, unless the body's `roomId` is null or 0: that value is written, and the row leaves the room it was checked and priced against. |
| Controllers.CancellationFreesRoom | server/controllers/bookingController.js:188-193 | Cancelling a booking that was not cancelled sets its room to Available and leaves every other room as it was. |
| Controllers.RecancellingKeepsRooms | server/controllers/bookingController.js:188 | Cancelling an already cancelled booking writes no room. |
| Controllers.MoveReleasesAndReserves | server/controllers/bookingController.js:162-173 | A move to a truthy room id sets the old room to Available and the new room to Reserved, and leaves every other room as it was. |
| Controllers.OtherUpdatesKeepRooms | server/controllers/bookingController.js:161-193 | An update that neither moves nor cancels the booking writes no room. |
| Controllers.UpdateKeepsNoDoubleBooking | server/controllers/bookingController.js:122-196 | Writing the updated row keeps rooms free of double bookings when the stays are ordered and the update passed the re-check or did not reactivate a booking without it. A null or 0 room id in the body detaches the row, which also keeps the invariant (no row holds room 0, as room ids start at 1). |
| Controllers.InsertBookingKeepsTablesValid | server/models/Booking.js:47-73 | Inserting a booking the store accepts, under the next id, keeps ids fresh, references unique, prices in range and foreign keys resolved. |
| Controllers.WriteBookingKeepsTablesValid | server/models/Booking.js:47-73 | Overwriting a booking with one the store accepts keeps the tables' guarantees. |
| Controllers.MarkStatusKeepsTablesValid | server/models/Room.js:10-14 | A status write keeps room numbers unique and rates in range. |
| Controllers.InsertRoomKeepsTablesValid | server/models/Room.js:10-14 | Inserting a room the store accepts, under the next id, keeps the tables' guarantees. |
| Controllers.WriteRoomKeepsTablesValid | server/models/Room.js:10-14 | Overwriting a room with one the store accepts keeps the tables' guarantees. |
| Controllers.RemoveBookingKeepsTablesValid | server/controllers/bookingController.js:227 | Removing a booking keeps the tables' guarantees. |
| Controllers.RemoveRoomKeepsTablesValid | server/models/Booking.js:70 | Removing a room and nulling its bookings' room keeps the tables' guarantees, foreign keys included. |
| Controllers.Hotel.CreateBooking | server/controllers/bookingController.js:42-110 | Outcome and order of checks: Conflict, with exactly the conflicting ids, iff the query finds any. Then NotFound iff the room id is null or names no room. Then Failed(NotNullViolation) iff the body carries no reference. Then Failed(ConstraintViolation) iff the store refuses the row (taken reference, unknown guest, price out of range). On any of these nothing changes. On Ok: exactly one booking, with the computed price and defaults, is added under a fresh id, and the room becomes Reserved whatever its status was. For ordered dates, no double booking is introduced. |
| Controllers.Hotel.UpdateBooking | server/controllers/bookingController.js:113-210 | Outcome: NotFound iff the id is missing. Conflict iff the re-check runs and finds bookings. Failed(NullRoom) iff the effective room is null or missing. Failed(ConstraintViolation) iff the store refuses the row (taken reference, unknown guest or room, price out of range). Nothing changes on NotFound or Conflict. On Ok or Failed, the room writes are those of a move or a cancellation. On Ok, only this booking changes, to the body applied with the repriced total. Rooms stay free of double bookings when every stored stay, and the written one, ends no earlier than it starts, unless the update reactivates a booking without the re-check. |
| Controllers.Hotel.RecheckUpdate | server/controllers/bookingController.js:122-185 | The re-check phase: Conflict with exactly the conflicting ids and no write; otherwise the move's room writes, then NullRoom when the effective room is null or missing, else the body repriced. |
| Controllers.Hotel.FinishUpdate | server/controllers/bookingController.js:187-196 | The last phase: a cancellation releases the booking's room; the body is then written unless the store refuses it, and then the room write stays. |
| Controllers.Hotel.DeleteBooking | server/controllers/bookingController.js:213-233 | NotFound iff the id is missing, and then nothing changes. Otherwise exactly that booking is removed and its room, if it still has one, set to Available, whatever the booking's status. Rooms stay free of double bookings, whatever the order of the stays, and ordered stays stay ordered. |
| Controllers.Hotel.BookingsByGuest | server/controllers/bookingController.js:236-253 | Returns every booking of the guest and nothing else. |
| Controllers.Hotel.RoomById | server/controllers/roomController.js:15-28 | NotFound iff the id is missing, else the room. |
| Controllers.Hotel.CreateRoom | server/controllers/roomController.js:31-39 | Ok iff the room number is free and the rate fits. Then exactly the defaulted room is added under a fresh id. Otherwise nothing changes. Bookings are untouched. |
| Controllers.Hotel.UpdateRoom | server/controllers/roomController.js:42-56 | NotFound iff the id is missing. Failed iff the store refuses the patched row. On either, nothing changes. On Ok only that room changes, to the patched row. Bookings are untouched. |
| Controllers.Hotel.DeleteRoom | server/controllers/roomController.js:59-73 | NotFound iff the id is missing, and then nothing changes. Otherwise exactly that room is removed and its bookings lose their room (ON DELETE SET NULL). Rooms stay free of double bookings, whatever the order of the stays, and ordered stays stay ordered. |
| Controllers.Hotel.AvailableRooms | server/controllers/roomController.js:76-121 | Fails with MissingDates iff either date is missing. Otherwise returns exactly the Available rooms that no booking, of whatever status, overlaps. |
| Scenarios.CancelOnlyBooking | server/controllers/bookingController.js:188-196 | Cancelling the one booking of a one-room store keeps its row, now Cancelled, and sets the room back to Available. |
| Scenarios.ReserveRefuseCancelRebook | server/controllers/bookingController.js:42-193 | Three days at 100.00 cost 300.00 and reserve the room. A stay inside that one is refused, naming exactly the first booking. Cancelling frees the room. The same dates can then be booked again, as a new booking. |
| Scenarios.SameDayTurnoverRefused | server/controllers/bookingController.js:47-75 | A stay starting on the day another ends is refused as a conflict. |
| Scenarios.ReactivationDoubleBooks | server/controllers/bookingController.js:122-123 | Cancel, rebook the dates, then reactivate by status alone: every request succeeds and the room is double booked. |
| Scenarios.ReversedDatesDoubleBook | server/controllers/bookingController.js:83-93 | A reversed stay is accepted at minus ten nights' price and does not block a stay inside it, which leaves the room double booked. |
| Scenarios.MoveToMissingRoomFreesOldRoom | server/controllers/bookingController.js:162-184 | A move to a missing room fails after the old room was set to Available, while the booking still holds that room. |
| Scenarios.MissingReferenceRefused | server/models/Booking.js:47-63 | A create body without a reference fails validation; one with an empty reference is stored under a generated "BK-" reference. |
| Scenarios.UnknownGuestRefused | server/models/Booking.js:69 | A create naming a guest that does not exist is refused and stores nothing. |
| Scenarios.DeletedRoomDetachesBooking | server/controllers/roomController.js:67 | After its room is deleted a booking survives with a null room, and an update of its dates then fails with NullRoom. |
| Scenarios.NullRoomBodyDetaches | server/controllers/bookingController.js:122-196 | An update body `{roomId: null}` succeeds, stores a null room and writes no room status: the room stays Reserved, and the same room and dates can be booked again. |
| Scenarios.MoveOntoReversedStayDoubleBooks | server/controllers/bookingController.js:122-196 | With a reversed stay stored on one room, a stay on another room is moved onto it: the re-check finds nothing, the update succeeds without any reactivation, and the first room is double booked. |
| Scenarios.NullRoomCreate | server/controllers/bookingController.js:44-81 | A create body with a null room is refused as a conflict with a detached booking on overlapping dates, and is 404 otherwise. |

## Left out

- Controllers.Hotel.AvailableRooms: it models the filter the code is written
  to apply. `roomController.js` does not import `Op`, so in the code the query
  throws and the request always ends in the 500 handler.
- Controllers.Hotel.CreateBooking: the no-double-booking guarantee is stated
  only for ordered dates. The code accepts reversed dates, and then the
  guarantee fails (`ReversedDatesDoubleBook`).
- Controllers.Hotel.UpdateBooking: the no-double-booking guarantee is stated
  only for ordered dates, the stored stays and the written one, and excludes
  reactivation without a re-check. The code accepts both, and then the
  guarantee fails: a reversed stored stay does not block a move onto its room
  (`MoveOntoReversedStayDoubleBooks`), and a reactivation skips the re-check
  (`ReactivationDoubleBooks`).
- Controllers.Hotel.UpdateBooking: an update body that sets a NOT NULL column
  (a date, the number of guests, the price, a status or the reference) to
  null cannot be expressed, as the update request type carries those columns
  as values. In the code `booking.update` (`bookingController.js:196`)
  refuses such a body, after the room writes of a move or a cancellation
  (`:162-173`, `:188-193`) have already happened.
- The guests table itself: guest creation and deletion belong to the guest
  controller, so `Hotel.guests` is fixed and the ON DELETE SET NULL of
  `guestId` never fires here.
- A create body that lacks a date, or lacks the `roomId` key altogether (as
  opposed to carrying null): the create request type always carries both
  dates and a nullable `roomId`, so the failures of the query or of
  validation for such a body are not modelled.
- Controllers.Hotel.CreateRoom: the room create body always carries
  `roomNumber`, `type` and `pricePerNight`, so the 400 that `Room.create`
  gives for a body lacking one of these not-null columns (`Room.js:10-22`,
  `roomController.js:33-37`) is not modelled.
- Integer widths: ids and counts are unbounded. The 32-bit INTEGER columns
  and the store's id sequence gaps after a refused insert are not modelled.
- Dates: JS `Date` parsing and time zones are not modelled. Dates are already
  instants in milliseconds. JS number arithmetic is exact here because
  integers are unbounded.
- The string-versus-number comparison of `req.body.roomId` with
  `booking.roomId` in the move test (`bookingController.js:162`): ids are
  plain integers.
- Store failures that surface as 500 responses, such as lost connections, and
  the eager-load joins (`include`): a booking is returned by id and not
  joined with its guest and room.
- The race between the conflict query and the insert when requests run
  concurrently: each request is one atomic method call here.
- `getAllBookings`, `getBookingById` and `getAllRooms`: plain reads of a whole
  table or one row, with no derived state.
- The React client, the HTTP routes, the guest and staff controllers and the
  database configuration.

=== FILE: availability.dfy ===
/** The availability query of the booking controller and of the room
    controller's `getAvailableRooms`, the invariant that no room is booked twice
    for overlapping dates, and what keeps that invariant. */
module Availability {
  import opened Wrappers
  import opened Rooms
  import opened Bookings

  /** The three inclusive clauses of the conflict query: a stored stay with
      `checkIn` and `checkOut` blocks the requested `[from, to]` when its
      check-in lies in `[from, to]` (SQL BETWEEN), or its check-out does, or it
      starts no later than `from` and ends no earlier than `to`. */
  predicate Overlaps(checkIn: int, checkOut: int, from: int, to: int)
    ensures checkIn <= checkOut && from <= to ==>
      (Overlaps(checkIn, checkOut, from, to) <==> !(checkOut < from || to < checkIn))
  {
    || (from <= checkIn && checkIn <= to)
    || (from <= checkOut && checkOut <= to)
    || (checkIn <= from && checkOut >= to)
  }

  /** A booking is active when its status is neither Cancelled nor No Show. */
  predicate IsActive(s: BookingStatus) {
    s != Cancelled && s != NoShow
  }

  /** The stored booking `b` is one the booking controller's query returns for
      room `roomId` and the range `[from, to]`. A null `roomId` is matched
      against the bookings whose room is null, as SQL `IS NULL`. */
  predicate Conflicts(b: Booking, roomId: Option<int>, from: int, to: int) {
    && b.roomId == roomId
    && IsActive(b.bookingStatus)
    && Overlaps(b.checkInDate, b.checkOutDate, from, to)
  }

  /** The ids of the conflicting bookings, leaving out `exclude` (the booking
      being updated, `id != booking.id`). */
  function ConflictIds(bookings: map<int, Booking>, roomId: Option<int>, from: int, to: int, exclude: Option<int>): (r: set<int>)
    ensures r <= bookings.Keys
    ensures exclude.Some? ==> exclude.value !in r
    ensures forall id :: id in r ==> bookings[id].roomId == roomId && IsActive(bookings[id].bookingStatus)
  {
    set id | id in bookings && exclude != Some(id) && Conflicts(bookings[id], roomId, from, to)
  }

  // ---------------------------------------------------------------------------
  // Properties of the overlap clauses
  // ---------------------------------------------------------------------------

  /** Same-day turnover is a conflict, both ways round: a stay ending on the
      requested check-in day, and a stay starting on the requested check-out day. */
  lemma TouchingRangesConflict(a: int, b: int, c: int)
    requires a <= b <= c
    ensures Overlaps(a, b, b, c)
    ensures Overlaps(b, c, a, b)
  {
  }

  /** A stored stay that encloses the requested range conflicts with it, and
      so does one that the requested range encloses. */
  lemma EnclosureConflicts(checkIn: int, checkOut: int, from: int, to: int)
    requires checkIn <= from <= to <= checkOut || from <= checkIn <= checkOut <= to
    ensures Overlaps(checkIn, checkOut, from, to)
  {
  }

  /** The instant `t` lies in the closed range `[lo, hi]`. */
  predicate Within(t: int, lo: int, hi: int) {
    lo <= t <= hi
  }

  /** For ranges that do not end before they start, the three clauses say
      exactly that the two closed ranges share an instant. */
  lemma OverlapsIffShareInstant(checkIn: int, checkOut: int, from: int, to: int)
    requires checkIn <= checkOut && from <= to
    ensures Overlaps(checkIn, checkOut, from, to) <==>
      exists t :: Within(t, checkIn, checkOut) && Within(t, from, to)
  {
    if Overlaps(checkIn, checkOut, from, to) {
      var t := if checkIn <= from then from else checkIn;
      assert Within(t, checkIn, checkOut) && Within(t, from, to);
    }
  }

  /** For ordered stays, the booking controller's query returns a booking
      exactly when it is on the room, is neither Cancelled nor No Show, is not
      the excluded booking, and shares an instant with the requested range. */
  lemma ConflictIffSharedInstant(bookings: map<int, Booking>, roomId: Option<int>, from: int, to: int, exclude: Option<int>, id: int)
    requires id in bookings && bookings[id].checkInDate <= bookings[id].checkOutDate && from <= to
    ensures id in ConflictIds(bookings, roomId, from, to, exclude) <==>
      && exclude != Some(id)
      && bookings[id].roomId == roomId
      && bookings[id].bookingStatus != Cancelled && bookings[id].bookingStatus != NoShow
      && exists t :: Within(t, bookings[id].checkInDate, bookings[id].checkOutDate) && Within(t, from, to)
  {
    OverlapsIffShareInstant(bookings[id].checkInDate, bookings[id].checkOutDate, from, to);
  }

  /** Hence, for such ranges, it does not matter which one is stored and which
      one is requested. */
  lemma OverlapsSymmetric(checkIn: int, checkOut: int, from: int, to: int)
    requires checkIn <= checkOut && from <= to
    ensures Overlaps(checkIn, checkOut, from, to) == Overlaps(from, to, checkIn, checkOut)
  {
    OverlapsIffShareInstant(checkIn, checkOut, from, to);
    OverlapsIffShareInstant(from, to, checkIn, checkOut);
  }

  /** For a range that ends before it starts, which the server accepts, the
      clauses are not symmetric: a stored [10, 0] does not block [5, 5], but a
      stored [5, 5] blocks [10, 0]. */
  lemma ReversedRangeAsymmetric()
    ensures !Overlaps(10, 0, 5, 5) && Overlaps(5, 5, 10, 0)
  {
  }

  // ---------------------------------------------------------------------------
  // The no-double-booking invariant
  // ---------------------------------------------------------------------------

  /** No room is double booked: no active booking would be reported as a
      conflict for the room and range of another active booking that holds a
      room. */
  ghost predicate NoDoubleBooking(bookings: map<int, Booking>) {
    forall i, j :: i in bookings && j in bookings && i != j && IsActive(bookings[j].bookingStatus) && bookings[j].roomId.Some? ==>
      !Conflicts(bookings[i], bookings[j].roomId, bookings[j].checkInDate, bookings[j].checkOutDate)
  }

  /** With ordered stays, no instant lies within two active bookings of the
      same room. */
  lemma NoDoubleBookingNoSharedInstant(bookings: map<int, Booking>, i: int, j: int, t: int)
    requires NoDoubleBooking(bookings) && DatesOrdered(bookings)
    requires i in bookings && j in bookings && i != j
    requires IsActive(bookings[i].bookingStatus) && IsActive(bookings[j].bookingStatus)
    requires bookings[i].roomId == bookings[j].roomId && bookings[j].roomId.Some?
    ensures !(Within(t, bookings[i].checkInDate, bookings[i].checkOutDate) && Within(t, bookings[j].checkInDate, bookings[j].checkOutDate))
  {
    assert !Conflicts(bookings[i], bookings[j].roomId, bookings[j].checkInDate, bookings[j].checkOutDate);
    OverlapsIffShareInstant(bookings[i].checkInDate, bookings[i].checkOutDate, bookings[j].checkInDate, bookings[j].checkOutDate);
  }

  /** Every stored stay ends no earlier than it starts. The server never checks
      this; the invariant above is only preserved where it holds. */
  ghost predicate DatesOrdered(bookings: map<int, Booking>) {
    forall id :: id in bookings ==> bookings[id].checkInDate <= bookings[id].checkOutDate
  }

  /** Storing `b` under `id` keeps rooms free of double bookings when `b` is
      inactive, or when the query, run for `b`'s room and range with `id`
      excluded, finds nothing; the ranges must be ordered for the query's
      one-sided check to cover both directions. */
  lemma {:induction false} StorePreservesNoDoubleBooking(bookings: map<int, Booking>, id: int, b: Booking)
    requires NoDoubleBooking(bookings) && DatesOrdered(bookings)
    requires b.checkInDate <= b.checkOutDate
    requires !IsActive(b.bookingStatus) || ConflictIds(bookings, b.roomId, b.checkInDate, b.checkOutDate, Some(id)) == {}
    ensures NoDoubleBooking(bookings[id := b])
    ensures DatesOrdered(bookings[id := b])
  {
    var m := bookings[id := b];
    forall i, j | i in m && j in m && i != j && IsActive(m[j].bookingStatus) && m[j].roomId.Some?
      ensures !Conflicts(m[i], m[j].roomId, m[j].checkInDate, m[j].checkOutDate)
    {
      if i == id && IsActive(b.bookingStatus) {
        assert j in bookings && j !in ConflictIds(bookings, b.roomId, b.checkInDate, b.checkOutDate, Some(id));
        OverlapsSymmetric(b.checkInDate, b.checkOutDate, m[j].checkInDate, m[j].checkOutDate);
      } else if j == id {
        assert i in bookings && i !in ConflictIds(bookings, b.roomId, b.checkInDate, b.checkOutDate, Some(id));
      }
    }
  }

  /** Storing `b` under an existing `id` with the same room and dates keeps
      rooms free of double bookings, unless it turns an inactive booking active. */
  lemma StoreSameSchedulePreservesNoDoubleBooking(bookings: map<int, Booking>, id: int, b: Booking)
    requires NoDoubleBooking(bookings) && id in bookings
    requires b.roomId == bookings[id].roomId
    requires b.checkInDate == bookings[id].checkInDate && b.checkOutDate == bookings[id].checkOutDate
    requires IsActive(b.bookingStatus) ==> IsActive(bookings[id].bookingStatus)
    ensures NoDoubleBooking(bookings[id := b])
  {
    var m := bookings[id := b];
    forall i, j | i in m && j in m && i != j && IsActive(m[j].bookingStatus) && m[j].roomId.Some?
      ensures !Conflicts(m[i], m[j].roomId, m[j].checkInDate, m[j].checkOutDate)
    {
      assert IsActive(m[i].bookingStatus) ==> IsActive(bookings[i].bookingStatus);
    }
  }

  /** Storing `b` under `id` keeps rooms free of double bookings when `b` has
      no room, or a room no other row holds, whatever its dates and status. */
  lemma StoreLoneRoomPreservesNoDoubleBooking(bookings: map<int, Booking>, id: int, b: Booking)
    requires NoDoubleBooking(bookings)
    requires b.roomId.None? || forall k :: k in bookings && k != id ==> bookings[k].roomId != b.roomId
    ensures NoDoubleBooking(bookings[id := b])
  {
    var m := bookings[id := b];
    forall i, j | i in m && j in m && i != j && IsActive(m[j].bookingStatus) && m[j].roomId.Some?
      ensures !Conflicts(m[i], m[j].roomId, m[j].checkInDate, m[j].checkOutDate)
    {
      if i != id && j != id {
        assert m[i] == bookings[i] && m[j] == bookings[j];
      }
    }
  }

  /** Removing a booking keeps rooms free of double bookings, whatever the
      order of the stays, and keeps ordered stays ordered. */
  lemma RemovePreservesNoDoubleBooking(bookings: map<int, Booking>, id: int)
    requires NoDoubleBooking(bookings)
    ensures NoDoubleBooking(bookings - {id})
    ensures DatesOrdered(bookings) ==> DatesOrdered(bookings - {id})
  {
  }

  /** Deleting a room nulls the room of its bookings, which keeps rooms free of
      double bookings, whatever the order of the stays, and keeps ordered stays
      ordered. */
  lemma DetachPreservesNoDoubleBooking(bookings: map<int, Booking>, roomId: int)
    requires NoDoubleBooking(bookings)
    ensures NoDoubleBooking(DetachRoom(bookings, roomId))
    ensures DatesOrdered(bookings) ==> DatesOrdered(DetachRoom(bookings, roomId))
  {
    var m := DetachRoom(bookings, roomId);
    forall i, j | i in m && j in m && i != j && IsActive(m[j].bookingStatus) && m[j].roomId.Some?
      ensures !Conflicts(m[i], m[j].roomId, m[j].checkInDate, m[j].checkOutDate)
    {
      assert m[j] == bookings[j];
    }
  }

  // ---------------------------------------------------------------------------
  // getAvailableRooms
  // ---------------------------------------------------------------------------

  /** The filter `getAvailableRooms` is written to apply: rooms whose status is
      Available and none of whose bookings, whatever their status, satisfies the
      three overlap clauses for `[from, to]`. A booking that overlaps the range
      excludes its room, and an Available room that no booking overlaps is
      listed. */
  function AvailableRoomIds(rooms: map<int, Room>, bookings: map<int, Booking>, from: int, to: int): (r: set<int>)
    ensures forall id :: id in r ==> id in rooms && rooms[id].status == Available
    ensures forall k :: k in bookings && bookings[k].roomId.Some? && Overlaps(bookings[k].checkInDate, bookings[k].checkOutDate, from, to) ==>
      bookings[k].roomId.value !in r
    ensures forall id :: id in rooms && rooms[id].status == Available && Unbooked(bookings, id, from, to) ==> id in r
  {
    set id | id in rooms && rooms[id].status == Available && Unbooked(bookings, id, from, to)
  }

  /** No booking of room `id`, whatever its status, overlaps `[from, to]`. */
  predicate Unbooked(bookings: map<int, Booking>, id: int, from: int, to: int) {
    forall k :: k in bookings && bookings[k].roomId == Some(id) ==>
      !Overlaps(bookings[k].checkInDate, bookings[k].checkOutDate, from, to)
  }

  /** Every room the filter returns exists, has status Available, and can be
      booked for the same range without the booking controller reporting a
      conflict. */
  lemma AvailableRoomIsBookable(rooms: map<int, Room>, bookings: map<int, Booking>, from: int, to: int, id: int)
    requires id in AvailableRoomIds(rooms, bookings, from, to)
    ensures id in rooms && rooms[id].status == Available
    ensures ConflictIds(bookings, Some(id), from, to, None) == {}
  {
    forall k | k in bookings
      ensures k !in ConflictIds(bookings, Some(id), from, to, None)
    {
    }
  }

  /** The converse fails: a Cancelled or No Show booking that overlaps the range
      is ignored by the booking controller, yet hides its room from the filter. */
  lemma InactiveBookingHidesRoom(rooms: map<int, Room>, bookings: map<int, Booking>, from: int, to: int, k: int)
    requires k in bookings && !IsActive(bookings[k].bookingStatus) && bookings[k].roomId.Some?
    requires Overlaps(bookings[k].checkInDate, bookings[k].checkOutDate, from, to)
    ensures k !in ConflictIds(bookings, bookings[k].roomId, from, to, None)
    ensures bookings[k].roomId.value !in AvailableRoomIds(rooms, bookings, from, to)
  {
  }

  /** In particular a cancelled booking hides its room for its own dates, whatever
      their order, although it is itself no conflict for the booking controller. */
  lemma CancelledBookingHidesRoom(rooms: map<int, Room>, bookings: map<int, Booking>, k: int)
    requires k in bookings && bookings[k].bookingStatus == Cancelled && bookings[k].roomId.Some?
    ensures var b := bookings[k];
      && k !in ConflictIds(bookings, b.roomId, b.checkInDate, b.checkOutDate, None)
      && b.roomId.value !in AvailableRoomIds(rooms, bookings, b.checkInDate, b.checkOutDate)
  {
    var b := bookings[k];
    InactiveBookingHidesRoom(rooms, bookings, b.checkInDate, b.checkOutDate, k);
  }
}

=== FILE: bookings.dfy ===
/** The bookings table (server/models/Booking.js): its columns, the two status
    enumerations, the defaults applied on insert, the field-wise update of a row
    and the `beforeCreate` hook that assigns a booking reference. */
module Bookings {
  import opened Wrappers

  /** The `bookingStatus` ENUM. */
  datatype BookingStatus = Confirmed | CheckedIn | CheckedOut | Cancelled | NoShow

  /** The `paymentStatus` ENUM ('Cancelled' is spelled PaymentCancelled here so
      that it does not clash with the booking status of the same name). */
  datatype PaymentStatus = Pending | Paid | PartiallyPaid | Refunded | PaymentCancelled

  /** A row of the bookings table, keyed by its `id` in the table map. Dates are
      instants in milliseconds; money is in cents (DECIMAL(10,2)). Both foreign
      keys are nullable: `roomId` becomes null when its room is deleted or when
      an update body sets it to null. */
  datatype Booking = Booking(
    guestId: Option<int>,
    roomId: Option<int>,
    checkInDate: int,
    checkOutDate: int,
    numberOfGuests: int,
    totalPrice: int,
    paymentStatus: PaymentStatus,
    bookingStatus: BookingStatus,
    paymentMethod: Option<string>,
    specialRequests: Option<string>,
    bookingReference: string)

  /** The body of a create request. `roomId` and both dates are what the
      controller reads; `totalPrice` is carried but always overridden. A null
      `roomId` is allowed by the column and reaches the conflict query. */
  datatype BookingInput = BookingInput(
    guestId: Option<int>,
    roomId: Option<int>,
    checkInDate: int,
    checkOutDate: int,
    numberOfGuests: Option<int>,
    totalPrice: Option<int>,
    paymentStatus: Option<PaymentStatus>,
    bookingStatus: Option<BookingStatus>,
    paymentMethod: Option<string>,
    specialRequests: Option<string>,
    bookingReference: Option<string>)

  /** The body of an update request: `None` is a field the body does not carry;
      the nullable columns carry `Some(None)` when the body sets them to null. */
  datatype BookingPatch = BookingPatch(
    guestId: Option<Option<int>>,
    roomId: Option<Option<int>>,
    checkInDate: Option<int>,
    checkOutDate: Option<int>,
    numberOfGuests: Option<int>,
    totalPrice: Option<int>,
    paymentStatus: Option<PaymentStatus>,
    bookingStatus: Option<BookingStatus>,
    paymentMethod: Option<Option<string>>,
    specialRequests: Option<Option<string>>,
    bookingReference: Option<string>)

  /** A patch that carries no field. */
  const EmptyPatch := BookingPatch(None, None, None, None, None, None, None, None, None, None, None)

  // ---------------------------------------------------------------------------
  // Decimal text, as JavaScript prints and pads integers
  // ---------------------------------------------------------------------------

  predicate IsDigit(c: char) {
    '0' <= c <= '9'
  }

  predicate AllDigits(s: string) {
    forall i :: 0 <= i < |s| ==> IsDigit(s[i])
  }

  function DigitChar(d: nat): (c: char)
    requires d < 10
    ensures IsDigit(c) && c as int - '0' as int == d
  {
    ('0' as int + d) as char
  }

  /** `n.toString()` for a non-negative integer: its decimal digits, with no
      sign and no leading zero. */
  function DecimalString(n: nat): (s: string)
    ensures |s| >= 1 && AllDigits(s)
    ensures s[0] == '0' ==> n == 0
    decreases n
  {
    if n < 10 then [DigitChar(n)] else DecimalString(n / 10) + [DigitChar(n % 10)]
  }

  /** The number a string of decimal digits denotes. */
  function DigitsValue(s: string): nat
    requires AllDigits(s)
  {
    if s == [] then 0 else DigitsValue(s[..|s| - 1]) * 10 + (s[|s| - 1] as int - '0' as int)
  }

  /** Printing a number and reading it back gives the number. */
  lemma {:induction false} DecimalStringRoundTrip(n: nat)
    ensures DigitsValue(DecimalString(n)) == n
    decreases n
  {
    var s := DecimalString(n);
    if n >= 10 {
      var t := DecimalString(n / 10);
      assert s[..|s| - 1] == t;
      DecimalStringRoundTrip(n / 10);
    }
  }

  /** Numbers below 1000 print with at most three digits. */
  lemma DecimalStringBelowThousand(n: nat)
    requires n < 1000
    ensures |DecimalString(n)| <= 3
  {
    if n >= 10 {
      assert |DecimalString(n / 10)| <= 2 by {
        if n / 10 >= 10 {
          assert |DecimalString(n / 100)| == 1;
        }
      }
    }
  }

  /** `s.padStart(width, fill)`: `s` preceded by as many `fill` characters as
      make it `width` long; a string already that long is left as it is. */
  function PadStart(s: string, width: nat, fill: char): (r: string)
    ensures |r| == if |s| >= width then |s| else width
    ensures r[|r| - |s|..] == s
    ensures forall i :: 0 <= i < |r| - |s| ==> r[i] == fill
    decreases width - |s|
  {
    if |s| >= width then s else PadStart([fill] + s, width, fill)
  }

  /** Leading zeros do not change the value of a string of digits. */
  lemma {:induction false} LeadingZerosValue(r: string, k: nat)
    requires k <= |r| && AllDigits(r)
    requires forall i :: 0 <= i < k ==> r[i] == '0'
    ensures DigitsValue(r) == DigitsValue(r[k..])
    decreases |r|
  {
    if |r| > k {
      LeadingZerosValue(r[..|r| - 1], k);
      assert r[..|r| - 1][k..] == r[k..][..|r[k..]| - 1];
    } else if k > 0 {
      LeadingZerosValue(r[..|r| - 1], k - 1);
      assert r[..|r| - 1][k - 1..] == [];
    }
  }

  /** The random part of a generated reference: `random` in decimal, padded
      on the left with '0' to three characters. */
  function Pad3(random: nat): string {
    PadStart(DecimalString(random), 3, '0')
  }

  /** For the values `Math.floor(Math.random() * 1000)` can take, the random
      part is exactly three decimal digits and reads back as the number drawn. */
  lemma Pad3Digits(random: nat)
    requires random < 1000
    ensures |Pad3(random)| == 3 && AllDigits(Pad3(random))
    ensures DigitsValue(Pad3(random)) == random
  {
    var s := DecimalString(random);
    var p := Pad3(random);
    DecimalStringBelowThousand(random);
    assert AllDigits(p) by {
      forall i | 0 <= i < |p|
        ensures IsDigit(p[i])
      {
        if i >= |p| - |s| {
          assert p[i] == p[|p| - |s|..][i - (|p| - |s|)];
        }
      }
    }
    LeadingZerosValue(p, |p| - |s|);
    DecimalStringRoundTrip(random);
  }

  // ---------------------------------------------------------------------------
  // The beforeCreate hook
  // ---------------------------------------------------------------------------

  /** `s.substring(start)`: the empty string when `start` is past the end. */
  function Substring(s: string, start: nat): string {
    if start <= |s| then s[start..] else []
  }

  /** `BK-<Date.now() printed, from index 4>-<random, padded to three digits>`,
      with the clock reading `now` and the drawn integer `random` as parameters. */
  function GeneratedReference(now: nat, random: nat): (r: string)
    ensures |r| >= 7 && r[..3] == "BK-"
  {
    var r := "BK-" + Substring(DecimalString(now), 4) + "-" + Pad3(random);
    assert r[..3] == ("BK-" + Substring(DecimalString(now), 4))[..3];
    r
  }

  /** The reference the hook leaves on a new row: a non-empty supplied one is
      kept; an absent or empty one (falsy in JavaScript) is replaced by a
      generated one. The result is never empty. */
  function AssignReference(supplied: Option<string>, now: nat, random: nat): (r: string)
    ensures supplied.Some? && supplied.value != [] ==> r == supplied.value
    ensures (supplied.None? || supplied.value == []) ==> r == GeneratedReference(now, random)
    ensures (supplied.None? || supplied.value == []) ==> |r| >= 3 && r[..3] == "BK-"
    ensures r != []
  {
    if supplied.Some? && supplied.value != [] then supplied.value else GeneratedReference(now, random)
  }

  /** A suffix of a string of digits is a string of digits. */
  lemma SubstringDigits(s: string, start: nat)
    requires AllDigits(s)
    ensures AllDigits(Substring(s, start))
  {
  }

  /** A generated reference has the shape `BK-<digits>-<ddd>`: it starts with
      "BK-", the middle is the clock's digits from index 4 on, and for a drawn
      value below 1000 it ends with '-' and three digits that read back as that value. */
  lemma GeneratedReferenceShape(now: nat, random: nat)
    requires random < 1000
    ensures var r := GeneratedReference(now, random);
      && |r| >= 7
      && r[..3] == "BK-"
      && r[3..|r| - 4] == Substring(DecimalString(now), 4)
      && AllDigits(r[3..|r| - 4])
      && r[|r| - 4] == '-'
      && AllDigits(r[|r| - 3..])
      && DigitsValue(r[|r| - 3..]) == random
  {
    Pad3Digits(random);
    SubstringDigits(DecimalString(now), 4);
    ReferencePieces(Substring(DecimalString(now), 4), Pad3(random));
  }

  /** Where the pieces of `BK-<t>-<p>` sit, for a three-character `p`. */
  lemma ReferencePieces(t: string, p: string)
    requires |p| == 3
    ensures var r := "BK-" + t + "-" + p;
      |r| == |t| + 7 && r[..3] == "BK-" && r[3..|r| - 4] == t && r[|r| - 4] == '-' && r[|r| - 3..] == p
  {
    var r := "BK-" + t + "-" + p;
    var head := "BK-" + t;
    var tail := "-" + p;
    assert r == head + tail;
    assert r[..3] == head[..3];
    assert r[3..|r| - 4] == head[3..];
    assert r[|r| - 3..] == tail[1..];
  }

  /** Two generated references that are equal were made from the same drawn
      value and from clock readings that agree from the fifth digit on. */
  lemma GeneratedReferenceDetermines(now1: nat, random1: nat, now2: nat, random2: nat)
    requires random1 < 1000 && random2 < 1000
    requires GeneratedReference(now1, random1) == GeneratedReference(now2, random2)
    ensures random1 == random2
    ensures Substring(DecimalString(now1), 4) == Substring(DecimalString(now2), 4)
  {
    var t1, p1 := Substring(DecimalString(now1), 4), Pad3(random1);
    var t2, p2 := Substring(DecimalString(now2), 4), Pad3(random2);
    Pad3Digits(random1);
    Pad3Digits(random2);
    assert GeneratedReference(now1, random1) == "BK-" + t1 + "-" + p1;
    assert GeneratedReference(now2, random2) == "BK-" + t2 + "-" + p2;
    PiecesDetermine(t1, p1, t2, p2);
  }

  /** `BK-<t>-<p>` with a three-character `p` determines `t` and `p`. */
  lemma PiecesDetermine(t1: string, p1: string, t2: string, p2: string)
    requires |p1| == 3 && |p2| == 3
    requires "BK-" + t1 + "-" + p1 == "BK-" + t2 + "-" + p2
    ensures t1 == t2 && p1 == p2
  {
    ReferencePieces(t1, p1);
    ReferencePieces(t2, p2);
  }

  /** Appending a digit to a positive number appends its character to the text. */
  lemma DecimalStringAppend(n: nat, d: nat)
    requires 1 <= n && d < 10
    ensures DecimalString(n * 10 + d) == DecimalString(n) + [DigitChar(d)]
  {
    assert (n * 10 + d) / 10 == n && (n * 10 + d) % 10 == d;
  }

  function Pow10(k: nat): (p: nat)
    ensures p >= 1
  {
    if k == 0 then 1 else 10 * Pow10(k - 1)
  }

  function Zeros(k: nat): string {
    seq(k, _ => '0')
  }

  /** Multiplying by ten times `p` is multiplying by `p` and then by ten, and
      stays positive. */
  lemma ShiftDecimal(a: nat, p: nat)
    requires a >= 1 && p >= 1
    ensures a * (10 * p) == (a * p) * 10 && a * p >= 1
  {
    assert a * p >= 1 * p;
  }

  /** Multiplying a positive number by 10^k appends k zeros to its text. */
  lemma {:induction false} DecimalStringTimesPow10(a: nat, k: nat)
    requires a >= 1
    ensures DecimalString(a * Pow10(k)) == DecimalString(a) + Zeros(k)
  {
    if k > 0 {
      var p := Pow10(k - 1);
      var m := a * p;
      assert Pow10(k) == 10 * p;
      ShiftDecimal(a, p);
      assert a * Pow10(k) == m * 10 + 0;
      DecimalStringTimesPow10(a, k - 1);
      DecimalStringAppend(m, 0);
      assert Zeros(k) == Zeros(k - 1) + [DigitChar(0)];
    }
  }

  /** Four-digit numbers print with four characters. */
  lemma DecimalStringFourDigits(a: nat)
    requires 1000 <= a < 10000
    ensures |DecimalString(a)| == 4
  {
    var a1 := a / 10;
    var a2 := a1 / 10;
    var a3 := a2 / 10;
    assert 1 <= a3 < 10 && 10 <= a2 < 100 && 100 <= a1 < 1000;
    assert |DecimalString(a3)| == 1;
    assert |DecimalString(a2)| == 2;
    assert |DecimalString(a1)| == 3;
  }

  /** The hook does not guarantee uniqueness: clock readings that differ only
      in their first four digits (for a 13-digit reading, multiples of 10^9 ms,
      about eleven and a half days, apart) give the same reference for the same
      drawn value, e.g. 1700 * 10^9 and 1701 * 10^9. */
  lemma GeneratedReferenceCollision(a1: nat, a2: nat, k: nat, random: nat)
    requires 1000 <= a1 < 10000 && 1000 <= a2 < 10000
    ensures GeneratedReference(a1 * Pow10(k), random) == GeneratedReference(a2 * Pow10(k), random)
  {
    DecimalStringTimesPow10(a1, k);
    DecimalStringTimesPow10(a2, k);
    DecimalStringFourDigits(a1);
    DecimalStringFourDigits(a2);
    assert Substring(DecimalString(a1 * Pow10(k)), 4) == Zeros(k);
    assert Substring(DecimalString(a2 * Pow10(k)), 4) == Zeros(k);
  }

  // ---------------------------------------------------------------------------
  // Insert and update
  // ---------------------------------------------------------------------------

  /** The row `Booking.create({...body, totalPrice})` inserts: the computed
      price overrides any price in the body, absent fields take the column
      defaults (one guest, payment Pending, booking Confirmed), and the hook
      assigns the reference. */
  function NewBooking(req: BookingInput, totalPrice: int, now: nat, random: nat): (b: Booking)
    ensures b.totalPrice == totalPrice
    ensures b.guestId == req.guestId && b.roomId == req.roomId
    ensures b.checkInDate == req.checkInDate && b.checkOutDate == req.checkOutDate
    ensures req.numberOfGuests.None? ==> b.numberOfGuests == 1
    ensures req.paymentStatus.None? ==> b.paymentStatus == Pending
    ensures req.bookingStatus.None? ==> b.bookingStatus == Confirmed
    ensures req.numberOfGuests.Some? ==> b.numberOfGuests == req.numberOfGuests.value
    ensures req.paymentStatus.Some? ==> b.paymentStatus == req.paymentStatus.value
    ensures req.bookingStatus.Some? ==> b.bookingStatus == req.bookingStatus.value
    ensures b.paymentMethod == req.paymentMethod && b.specialRequests == req.specialRequests
    ensures b.bookingReference == AssignReference(req.bookingReference, now, random)
    ensures b.bookingReference != []
  {
    Booking(
      req.guestId,
      req.roomId,
      req.checkInDate,
      req.checkOutDate,
      req.numberOfGuests.GetOr(1),
      totalPrice,
      req.paymentStatus.GetOr(Pending),
      req.bookingStatus.GetOr(Confirmed),
      req.paymentMethod,
      req.specialRequests,
      AssignReference(req.bookingReference, now, random))
  }

  /** `booking.update(body)`: every field the body carries is overwritten,
      every other field keeps its value. */
  function ApplyPatch(b: Booking, p: BookingPatch): (r: Booking)
    ensures p.guestId.Some? ==> r.guestId == p.guestId.value
    ensures p.roomId.Some? ==> r.roomId == p.roomId.value
    ensures p.checkInDate.Some? ==> r.checkInDate == p.checkInDate.value
    ensures p.checkOutDate.Some? ==> r.checkOutDate == p.checkOutDate.value
    ensures p.numberOfGuests.Some? ==> r.numberOfGuests == p.numberOfGuests.value
    ensures p.totalPrice.Some? ==> r.totalPrice == p.totalPrice.value
    ensures p.paymentStatus.Some? ==> r.paymentStatus == p.paymentStatus.value
    ensures p.bookingStatus.Some? ==> r.bookingStatus == p.bookingStatus.value
    ensures p.paymentMethod.Some? ==> r.paymentMethod == p.paymentMethod.value
    ensures p.specialRequests.Some? ==> r.specialRequests == p.specialRequests.value
    ensures p.bookingReference.Some? ==> r.bookingReference == p.bookingReference.value
    ensures p.guestId.None? ==> r.guestId == b.guestId
    ensures p.roomId.None? ==> r.roomId == b.roomId
    ensures p.checkInDate.None? ==> r.checkInDate == b.checkInDate
    ensures p.checkOutDate.None? ==> r.checkOutDate == b.checkOutDate
    ensures p.numberOfGuests.None? ==> r.numberOfGuests == b.numberOfGuests
    ensures p.totalPrice.None? ==> r.totalPrice == b.totalPrice
    ensures p.paymentStatus.None? ==> r.paymentStatus == b.paymentStatus
    ensures p.bookingStatus.None? ==> r.bookingStatus == b.bookingStatus
    ensures p.paymentMethod.None? ==> r.paymentMethod == b.paymentMethod
    ensures p.specialRequests.None? ==> r.specialRequests == b.specialRequests
    ensures p.bookingReference.None? ==> r.bookingReference == b.bookingReference
  {
    Booking(
      p.guestId.GetOr(b.guestId),
      p.roomId.GetOr(b.roomId),
      p.checkInDate.GetOr(b.checkInDate),
      p.checkOutDate.GetOr(b.checkOutDate),
      p.numberOfGuests.GetOr(b.numberOfGuests),
      p.totalPrice.GetOr(b.totalPrice),
      p.paymentStatus.GetOr(b.paymentStatus),
      p.bookingStatus.GetOr(b.bookingStatus),
      p.paymentMethod.GetOr(b.paymentMethod),
      p.specialRequests.GetOr(b.specialRequests),
      p.bookingReference.GetOr(b.bookingReference))
  }

  /** Writing the same body twice leaves the row as writing it once. */
  lemma PatchTwiceIsPatchOnce(b: Booking, p: BookingPatch)
    ensures ApplyPatch(ApplyPatch(b, p), p) == ApplyPatch(b, p)
  {
  }

  /** An update keeps the booking reference exactly when its body does not
      carry a different one: the model does not protect the column. */
  lemma PatchReference(b: Booking, p: BookingPatch)
    ensures ApplyPatch(b, p).bookingReference == b.bookingReference
        <==> p.bookingReference.None? || p.bookingReference.value == b.bookingReference
  {
  }

  /** The bookings table after room `roomId` is deleted: the `roomId` foreign
      key is declared ON DELETE SET NULL, so no row names that room any more,
      the rows that did lose their room and nothing else, and every other row
      is untouched. */
  function DetachRoom(bookings: map<int, Booking>, roomId: int): (r: map<int, Booking>)
    ensures r.Keys == bookings.Keys
    ensures forall id :: id in r ==> r[id].roomId != Some(roomId)
    ensures forall id :: id in r ==> r[id] == bookings[id].(roomId := r[id].roomId)
    ensures forall id :: id in r && bookings[id].roomId != Some(roomId) ==> r[id] == bookings[id]
  {
    map id | id in bookings ::
      if bookings[id].roomId == Some(roomId) then bookings[id].(roomId := None) else bookings[id]
  }

  /** `bookingReference` is declared unique: no two rows share one. */
  ghost predicate UniqueReferences(bookings: map<int, Booking>) {
    forall i, j :: i in bookings && j in bookings && i != j ==>
      bookings[i].bookingReference != bookings[j].bookingReference
  }

  /** Some row other than `except` already holds `reference`: the unique index
      would refuse a row with it. */
  predicate ReferenceTaken(bookings: map<int, Booking>, reference: string, except: Option<int>) {
    exists k :: k in bookings && except != Some(k) && bookings[k].bookingReference == reference
  }

  /** Writing a row whose reference no other row holds keeps references unique. */
  lemma StoreKeepsReferencesUnique(bookings: map<int, Booking>, id: int, b: Booking)
    requires UniqueReferences(bookings)
    requires !ReferenceTaken(bookings, b.bookingReference, Some(id))
    ensures UniqueReferences(bookings[id := b])
  {
  }
}

=== FILE: hotel.dfy ===
/** The booking and room controllers (server/controllers/bookingController.js,
    server/controllers/roomController.js) as operations on one store that holds
    the rooms and bookings tables. A request is one call: it reads the tables,
    writes them step by step in the order the controller does, and returns an
    outcome that tells the responses apart. */
module Controllers {
  import opened Wrappers
  import opened Rooms
  import opened Bookings
  import opened Pricing
  import opened Availability

  /** Why a request ended in the controllers' catch-all or validation response. */
  datatype Failure =
    | NotNullViolation     // validation refused a create body without `bookingReference`, before the hook runs
    | ConstraintViolation  // the store refused the row: a unique index, a foreign key or the DECIMAL(10,2) range
    | NullRoom             // `room.pricePerNight` read from a room `findByPk` did not find
    | MissingDates         // getAvailableRooms without both dates

  /** The response of a request: 200/201 with a value, 404, 400 with the
      conflicting bookings' ids, or a failure. */
  datatype Outcome<T> = Ok(value: T) | NotFound | Conflict(ids: set<int>) | Failed(why: Failure)

  /** `Room.findByPk(id)` finds a room: `id` is not null and names a row. */
  predicate HasRoom(rooms: map<int, Room>, id: Option<int>) {
    id.Some? && id.value in rooms
  }

  /** `Room.findByPk(id)` followed, when a room is found, by
      `room.update({ status: s })`: the only room that changes is `id`, and
      only its status; a null or unknown `id` changes nothing. */
  function MarkStatus(rooms: map<int, Room>, id: Option<int>, s: RoomStatus): (r: map<int, Room>)
    ensures r.Keys == rooms.Keys
    ensures HasRoom(rooms, id) ==> r[id.value] == rooms[id.value].(status := s)
    ensures forall k :: k in rooms && id != Some(k) ==> r[k] == rooms[k]
  {
    if HasRoom(rooms, id) then rooms[id.value := rooms[id.value].(status := s)] else rooms
  }

  /** The store accepts `b` as a row: no row other than `except` holds its
      reference, its price fits DECIMAL(10,2), and each foreign key is null or
      names an existing guest or room. */
  predicate StoreAccepts(rooms: map<int, Room>, guests: set<int>, bookings: map<int, Booking>, except: Option<int>, b: Booking) {
    && FitsDecimal(b.totalPrice)
    && !ReferenceTaken(bookings, b.bookingReference, except)
    && (b.guestId.None? || b.guestId.value in guests)
    && (b.roomId.None? || b.roomId.value in rooms)
  }

  /** The store accepts `r` as a row: no row other than `except` holds its
      number and its rate fits DECIMAL(10,2). */
  predicate StoreAcceptsRoom(rooms: map<int, Room>, except: Option<int>, r: Room) {
    FitsDecimal(r.pricePerNight) && !RoomNumberTaken(rooms, r.roomNumber, except)
  }

  // ---------------------------------------------------------------------------
  // The decisions of updateBooking
  // ---------------------------------------------------------------------------

  /** The room id the body carries when it is truthy in JavaScript: a body
      without `roomId`, with `roomId: null` or with `roomId: 0` carries none
      for the controller's tests, although `booking.update` still writes the
      null or the 0. */
  function BodyRoom(p: BookingPatch): (r: Option<int>)
    ensures r.Some? <==> p.roomId.Some? && p.roomId.value.Some? && p.roomId.value.value != 0
    ensures r.Some? ==> p.roomId == Some(r)
  {
    if p.roomId.Some? && p.roomId.value.Some? && p.roomId.value.value != 0 then p.roomId.value else None
  }

  /** The body carries a check-in date, a check-out date or a truthy room id. */
  predicate TouchesSchedule(p: BookingPatch) {
    p.checkInDate.Some? || p.checkOutDate.Some? || BodyRoom(p).Some?
  }

  /** The availability re-check runs: the body touches the schedule and does
      not set the status to Cancelled. */
  predicate RechecksAvailability(p: BookingPatch) {
    TouchesSchedule(p) && p.bookingStatus != Some(Cancelled)
  }

  /** The room, check-in and check-out the re-check uses: the body's value, or
      the stored one when the body does not carry it (or, for the room, carries
      a falsy one). */
  function EffectiveRoom(b: Booking, p: BookingPatch): Option<int> {
    if BodyRoom(p).Some? then BodyRoom(p) else b.roomId
  }

  function EffectiveCheckIn(b: Booking, p: BookingPatch): int {
    p.checkInDate.GetOr(b.checkInDate)
  }

  function EffectiveCheckOut(b: Booking, p: BookingPatch): int {
    p.checkOutDate.GetOr(b.checkOutDate)
  }

  /** The ids the re-check reports for booking `id` and body `p`. */
  function UpdateConflicts(bookings: map<int, Booking>, id: int, p: BookingPatch): set<int>
    requires id in bookings
  {
    var b := bookings[id];
    ConflictIds(bookings, EffectiveRoom(b, p), EffectiveCheckIn(b, p), EffectiveCheckOut(b, p), Some(id))
  }

  /** The body moves the booking to a different room: it carries a truthy
      room id other than the stored one. */
  predicate MovesRoom(b: Booking, p: BookingPatch) {
    BodyRoom(p).Some? && BodyRoom(p) != b.roomId
  }

  /** The body cancels a booking that was not cancelled. */
  predicate CancelsBooking(b: Booking, p: BookingPatch) {
    p.bookingStatus == Some(Cancelled) && b.bookingStatus != Cancelled
  }

  /** The body turns an inactive booking active without the re-check running. */
  predicate ReactivatesUnchecked(b: Booking, p: BookingPatch) {
    && !RechecksAvailability(p)
    && !IsActive(b.bookingStatus)
    && p.bookingStatus.Some? && IsActive(p.bookingStatus.value)
  }

  /** The rooms table after the status writes of an update that passed the
      re-check (or skipped it): a move releases the old room and reserves the
      new one; a cancellation releases the booking's room. No room is added or
      removed, only statuses change, and only the booking's room and the room
      the body names can change. */
  function RoomsAfterUpdate(rooms: map<int, Room>, b: Booking, p: BookingPatch): (r: map<int, Room>)
    ensures r.Keys == rooms.Keys
    ensures forall k :: k in rooms ==> r[k] == rooms[k].(status := r[k].status)
    ensures forall k :: k in rooms && b.roomId != Some(k) && BodyRoom(p) != Some(k) ==> r[k] == rooms[k]
  {
    if RechecksAvailability(p) && MovesRoom(b, p) then
      MarkStatus(MarkStatus(rooms, b.roomId, Available), BodyRoom(p), Reserved)
    else if CancelsBooking(b, p) then
      MarkStatus(rooms, b.roomId, Available)
    else
      rooms
  }

  /** The body `booking.update` receives: it differs from the request body at
      most in `totalPrice`, which after a re-check that found the effective room
      is the price at that room's rate for the effective dates, whatever price
      the request carried. */
  function PricedPatch(rooms: map<int, Room>, b: Booking, p: BookingPatch): (r: BookingPatch)
    ensures r.(totalPrice := p.totalPrice) == p
    ensures RechecksAvailability(p) && HasRoom(rooms, EffectiveRoom(b, p)) ==>
      r.totalPrice == Some(TotalPrice(rooms[EffectiveRoom(b, p).value].pricePerNight, EffectiveCheckIn(b, p), EffectiveCheckOut(b, p)))
    ensures !(RechecksAvailability(p) && HasRoom(rooms, EffectiveRoom(b, p))) ==> r == p
  {
    var roomId := EffectiveRoom(b, p);
    if RechecksAvailability(p) && HasRoom(rooms, roomId) then
      p.(totalPrice := Some(TotalPrice(rooms[roomId.value].pricePerNight, EffectiveCheckIn(b, p), EffectiveCheckOut(b, p))))
    else
      p
  }

  /** After a re-check, the row written has the effective dates, and its price
      is the effective room's rate times the nights, whatever price the body
      carried. The row holds the effective room too, unless the body carries
      a falsy `roomId` (null or 0): that one is written, so the row leaves the
      room it was priced and checked against (there is no room 0). */
  lemma RecheckedRowIsRepriced(rooms: map<int, Room>, b: Booking, p: BookingPatch)
    requires RechecksAvailability(p) && HasRoom(rooms, EffectiveRoom(b, p))
    ensures var u := ApplyPatch(b, PricedPatch(rooms, b, p));
      && u.checkInDate == EffectiveCheckIn(b, p) && u.checkOutDate == EffectiveCheckOut(b, p)
      && u.totalPrice == TotalPrice(rooms[EffectiveRoom(b, p).value].pricePerNight, u.checkInDate, u.checkOutDate)
      && (p.roomId.None? || BodyRoom(p).Some? ==> u.roomId == EffectiveRoom(b, p))
      && (p.roomId.Some? && BodyRoom(p).None? ==> u.roomId == p.roomId.value && (0 !in rooms ==> u.roomId != EffectiveRoom(b, p)))
  {
  }

  /** A cancellation sets the booking's room to Available and leaves every
      other room as it was. */
  lemma CancellationFreesRoom(rooms: map<int, Room>, b: Booking, p: BookingPatch)
    requires CancelsBooking(b, p) && HasRoom(rooms, b.roomId)
    ensures var after := RoomsAfterUpdate(rooms, b, p);
      && after.Keys == rooms.Keys
      && after[b.roomId.value] == rooms[b.roomId.value].(status := Available)
      && forall k :: k in rooms && k != b.roomId.value ==> after[k] == rooms[k]
  {
  }

  /** Cancelling a booking that is already cancelled writes no room. */
  lemma RecancellingKeepsRooms(rooms: map<int, Room>, b: Booking, p: BookingPatch)
    requires p.bookingStatus == Some(Cancelled) && b.bookingStatus == Cancelled
    ensures RoomsAfterUpdate(rooms, b, p) == rooms
  {
  }

  /** A move to another existing room sets the old room to Available and the
      new one to Reserved, and leaves every other room as it was. */
  lemma MoveReleasesAndReserves(rooms: map<int, Room>, b: Booking, p: BookingPatch)
    requires RechecksAvailability(p) && MovesRoom(b, p)
    requires HasRoom(rooms, b.roomId) && HasRoom(rooms, BodyRoom(p))
    ensures var after := RoomsAfterUpdate(rooms, b, p);
      && after.Keys == rooms.Keys
      && after[b.roomId.value] == rooms[b.roomId.value].(status := Available)
      && after[BodyRoom(p).value] == rooms[BodyRoom(p).value].(status := Reserved)
      && forall k :: k in rooms && k != b.roomId.value && k != BodyRoom(p).value ==> after[k] == rooms[k]
  {
  }

  /** Only a move or a cancellation changes room statuses: an update whose body
      neither moves the booking nor cancels it writes no room. */
  lemma OtherUpdatesKeepRooms(rooms: map<int, Room>, b: Booking, p: BookingPatch)
    requires !MovesRoom(b, p) && !CancelsBooking(b, p)
    ensures RoomsAfterUpdate(rooms, b, p) == rooms
  {
  }

  /** Writing the row an update produces keeps rooms free of double bookings
      when the stays are ordered, the new one included, and the update either
      passed the re-check or did not turn an inactive booking active. No row
      holds room 0, the id a falsy `roomId: 0` would write (room ids start at 1). */
  lemma UpdateKeepsNoDoubleBooking(rooms: map<int, Room>, bookings: map<int, Booking>, id: int, p: BookingPatch)
    requires NoDoubleBooking(bookings) && DatesOrdered(bookings) && id in bookings
    requires forall k :: k in bookings ==> bookings[k].roomId != Some(0)
    requires RechecksAvailability(p) ==> UpdateConflicts(bookings, id, p) == {}
    requires !ReactivatesUnchecked(bookings[id], p)
    requires var u := ApplyPatch(bookings[id], PricedPatch(rooms, bookings[id], p)); u.checkInDate <= u.checkOutDate
    ensures var u := ApplyPatch(bookings[id], PricedPatch(rooms, bookings[id], p));
      NoDoubleBooking(bookings[id := u]) && DatesOrdered(bookings[id := u])
  {
    var u := ApplyPatch(bookings[id], PricedPatch(rooms, bookings[id], p));
    if u.roomId.None? || u.roomId == Some(0) {
      // a falsy `roomId` in the body: the row leaves every room that another row holds
      StoreLoneRoomPreservesNoDoubleBooking(bookings, id, u);
    } else if RechecksAvailability(p) || TouchesSchedule(p) {
      StorePreservesNoDoubleBooking(bookings, id, u);
    } else {
      StoreSameSchedulePreservesNoDoubleBooking(bookings, id, u);
    }
  }

  // ---------------------------------------------------------------------------
  // What the store guarantees, and the writes that keep it
  // ---------------------------------------------------------------------------

  /** Ids are positive and below the next one each table hands out, the unique
      columns are unique, the money columns hold DECIMAL(10,2) values, and each
      booking's foreign keys are null or name an existing room and guest. */
  ghost predicate TablesValid(rooms: map<int, Room>, bookings: map<int, Booking>, guests: set<int>, nextRoomId: int, nextBookingId: int) {
    && 1 <= nextRoomId && 1 <= nextBookingId
    && (forall id :: id in rooms ==> 1 <= id < nextRoomId)
    && (forall id :: id in bookings ==> 1 <= id < nextBookingId)
    && UniqueRoomNumbers(rooms)
    && UniqueReferences(bookings)
    && (forall id :: id in rooms ==> FitsDecimal(rooms[id].pricePerNight))
    && (forall id :: id in bookings ==> FitsDecimal(bookings[id].totalPrice))
    && (forall id :: id in bookings && bookings[id].roomId.Some? ==> bookings[id].roomId.value in rooms)
    && (forall id :: id in bookings && bookings[id].guestId.Some? ==> bookings[id].guestId.value in guests)
  }

  /** Inserting a booking the store accepts under the next id keeps the tables valid. */
  lemma InsertBookingKeepsTablesValid(rooms: map<int, Room>, bookings: map<int, Booking>, guests: set<int>, nextRoomId: int, nextBookingId: int, b: Booking)
    requires TablesValid(rooms, bookings, guests, nextRoomId, nextBookingId)
    requires StoreAccepts(rooms, guests, bookings, None, b)
    ensures nextBookingId !in bookings
    ensures TablesValid(rooms, bookings[nextBookingId := b], guests, nextRoomId, nextBookingId + 1)
  {
    StoreKeepsReferencesUnique(bookings, nextBookingId, b);
  }

  /** Overwriting an existing booking with one the store accepts keeps the tables valid. */
  lemma WriteBookingKeepsTablesValid(rooms: map<int, Room>, bookings: map<int, Booking>, guests: set<int>, nextRoomId: int, nextBookingId: int, id: int, b: Booking)
    requires TablesValid(rooms, bookings, guests, nextRoomId, nextBookingId)
    requires id in bookings && StoreAccepts(rooms, guests, bookings, Some(id), b)
    ensures TablesValid(rooms, bookings[id := b], guests, nextRoomId, nextBookingId)
  {
    StoreKeepsReferencesUnique(bookings, id, b);
  }

  /** Removing a booking keeps the tables valid. */
  lemma RemoveBookingKeepsTablesValid(rooms: map<int, Room>, bookings: map<int, Booking>, guests: set<int>, nextRoomId: int, nextBookingId: int, id: int)
    requires TablesValid(rooms, bookings, guests, nextRoomId, nextBookingId)
    ensures TablesValid(rooms, bookings - {id}, guests, nextRoomId, nextBookingId)
  {
  }

  /** A status write keeps the tables valid. */
  lemma MarkStatusKeepsTablesValid(rooms: map<int, Room>, bookings: map<int, Booking>, guests: set<int>, nextRoomId: int, nextBookingId: int, id: Option<int>, s: RoomStatus)
    requires TablesValid(rooms, bookings, guests, nextRoomId, nextBookingId)
    ensures TablesValid(MarkStatus(rooms, id, s), bookings, guests, nextRoomId, nextBookingId)
  {
    var after := MarkStatus(rooms, id, s);
    forall i, j | i in after && j in after && i != j
      ensures after[i].roomNumber != after[j].roomNumber
    {
      assert after[i].roomNumber == rooms[i].roomNumber && after[j].roomNumber == rooms[j].roomNumber;
    }
  }

  /** Inserting a room the store accepts under the next id keeps the tables valid. */
  lemma InsertRoomKeepsTablesValid(rooms: map<int, Room>, bookings: map<int, Booking>, guests: set<int>, nextRoomId: int, nextBookingId: int, r: Room)
    requires TablesValid(rooms, bookings, guests, nextRoomId, nextBookingId)
    requires StoreAcceptsRoom(rooms, None, r)
    ensures nextRoomId !in rooms
    ensures TablesValid(rooms[nextRoomId := r], bookings, guests, nextRoomId + 1, nextBookingId)
  {
    StoreKeepsRoomNumbersUnique(rooms, nextRoomId, r);
  }

  /** Overwriting an existing room with one the store accepts keeps the tables valid. */
  lemma WriteRoomKeepsTablesValid(rooms: map<int, Room>, bookings: map<int, Booking>, guests: set<int>, nextRoomId: int, nextBookingId: int, id: int, r: Room)
    requires TablesValid(rooms, bookings, guests, nextRoomId, nextBookingId)
    requires id in rooms && StoreAcceptsRoom(rooms, Some(id), r)
    ensures TablesValid(rooms[id := r], bookings, guests, nextRoomId, nextBookingId)
  {
    StoreKeepsRoomNumbersUnique(rooms, id, r);
  }

  /** Removing a room, with its bookings' room set to null, keeps the tables valid. */
  lemma RemoveRoomKeepsTablesValid(rooms: map<int, Room>, bookings: map<int, Booking>, guests: set<int>, nextRoomId: int, nextBookingId: int, id: int)
    requires TablesValid(rooms, bookings, guests, nextRoomId, nextBookingId)
    ensures TablesValid(rooms - {id}, DetachRoom(bookings, id), guests, nextRoomId, nextBookingId)
  {
    var after := DetachRoom(bookings, id);
    forall i, j | i in after && j in after && i != j
      ensures after[i].bookingReference != after[j].bookingReference
    {
      assert after[i].bookingReference == bookings[i].bookingReference;
      assert after[j].bookingReference == bookings[j].bookingReference;
    }
  }

  // ---------------------------------------------------------------------------
  // The store
  // ---------------------------------------------------------------------------

  /** The rooms and bookings tables, keyed by their auto-increment ids, with
      the next id each table hands out, and the ids of the guests table, which
      the booking and room controllers only read. */
  class Hotel {
    var rooms: map<int, Room>
    var bookings: map<int, Booking>
    var nextRoomId: int
    var nextBookingId: int
    const guests: set<int>

    /** What the store itself guarantees; see `TablesValid`. */
    ghost predicate Valid()
      reads this
    {
      TablesValid(rooms, bookings, guests, nextRoomId, nextBookingId)
    }

    /** An empty store beside a guests table holding `guests`. */
    constructor (guests: set<int>)
      ensures Valid() && rooms == map[] && bookings == map[] && this.guests == guests
    {
      rooms := map[];
      bookings := map[];
      nextRoomId := 1;
      nextBookingId := 1;
      this.guests := guests;
    }

    // -------------------------------------------------------------------------
    // bookingController.js
    // -------------------------------------------------------------------------

    /** createBooking. The conflict query runs first; any conflict is reported
        with the conflicting ids and nothing changes. Only then is the room
        looked up (NotFound when missing). The price is the room's rate times
        the nights, overriding any price in the body, and the row takes the
        defaults. A body without a reference fails validation, which runs
        before the hook that would have generated one; an empty reference is
        replaced by the hook. If the store refuses the row (a taken reference,
        an unknown guest, a price beyond DECIMAL(10,2)) nothing changes;
        otherwise the row is added under a fresh id and the room is set to
        Reserved, whatever its status was. A successful create keeps rooms free
        of double bookings when every stay, the new one included, ends no
        earlier than it starts. `now` and `random` stand for `Date.now()` and
        `Math.floor(Math.random() * 1000)`. */
    method CreateBooking(req: BookingInput, now: nat, random: nat) returns (out: Outcome<int>)
      requires Valid()
      modifies this
      ensures Valid()
      ensures nextRoomId == old(nextRoomId)
      ensures out.Ok? || out.NotFound? || out.Conflict? || out == Failed(NotNullViolation) || out == Failed(ConstraintViolation)
      ensures out.Conflict? <==> ConflictIds(old(bookings), req.roomId, req.checkInDate, req.checkOutDate, None) != {}
      ensures out.Conflict? ==> out.ids == ConflictIds(old(bookings), req.roomId, req.checkInDate, req.checkOutDate, None)
      ensures out.NotFound? <==> !out.Conflict? && !HasRoom(old(rooms), req.roomId)
      ensures out == Failed(NotNullViolation) <==> !out.Conflict? && HasRoom(old(rooms), req.roomId) && req.bookingReference.None?
      ensures out == Failed(ConstraintViolation) <==>
        && !out.Conflict? && HasRoom(old(rooms), req.roomId) && req.bookingReference.Some?
        && !StoreAccepts(old(rooms), guests, old(bookings), None,
             NewBooking(req, TotalPrice(old(rooms)[req.roomId.value].pricePerNight, req.checkInDate, req.checkOutDate), now, random))
      ensures !out.Ok? ==> rooms == old(rooms) && bookings == old(bookings)
      ensures out.Ok? ==>
        && HasRoom(old(rooms), req.roomId)
        && req.bookingReference.Some?
        && out.value !in old(bookings)
        && bookings == old(bookings)[out.value :=
             NewBooking(req, TotalPrice(old(rooms)[req.roomId.value].pricePerNight, req.checkInDate, req.checkOutDate), now, random)]
        && rooms == old(rooms)[req.roomId.value := old(rooms)[req.roomId.value].(status := Reserved)]
      ensures out.Ok? && NoDoubleBooking(old(bookings)) && DatesOrdered(old(bookings)) && req.checkInDate <= req.checkOutDate
        ==> NoDoubleBooking(bookings) && DatesOrdered(bookings)
    {
      var conflicts := ConflictIds(bookings, req.roomId, req.checkInDate, req.checkOutDate, None);
      if conflicts != {} {
        return Conflict(conflicts);
      }
      if !HasRoom(rooms, req.roomId) {
        return NotFound;
      }
      var room := rooms[req.roomId.value];
      var totalPrice := TotalPrice(room.pricePerNight, req.checkInDate, req.checkOutDate);
      if req.bookingReference.None? {
        return Failed(NotNullViolation);
      }
      var booking := NewBooking(req, totalPrice, now, random);
      if !StoreAccepts(rooms, guests, bookings, None, booking) {
        return Failed(ConstraintViolation);
      }
      var id := nextBookingId;
      ghost var before := bookings;
      InsertBookingKeepsTablesValid(rooms, bookings, guests, nextRoomId, nextBookingId, booking);
      bookings := bookings[id := booking];
      nextBookingId := nextBookingId + 1;
      MarkStatusKeepsTablesValid(rooms, bookings, guests, nextRoomId, nextBookingId, req.roomId, Reserved);
      rooms := rooms[req.roomId.value := room.(status := Reserved)];
      assert rooms == MarkStatus(old(rooms), req.roomId, Reserved);
      if NoDoubleBooking(before) && DatesOrdered(before) && req.checkInDate <= req.checkOutDate {
        assert ConflictIds(before, booking.roomId, booking.checkInDate, booking.checkOutDate, Some(id)) == {} by {
          forall k | k in before
            ensures k !in ConflictIds(before, booking.roomId, booking.checkInDate, booking.checkOutDate, Some(id))
          {
            assert k !in conflicts;
          }
        }
        StorePreservesNoDoubleBooking(before, id, booking);
      }
      out := Ok(id);
    }

    /** updateBooking. A missing booking is NotFound and nothing changes. When
        the body touches the schedule and does not cancel, the conflict query
        runs for the effective room and dates, excluding the booking itself; a
        conflict is reported and nothing changes. A move then releases the old
        room and reserves the new one; the price is recomputed at the effective
        room's rate (a null or missing effective room fails here, after the
        move's status writes). A cancellation of a booking not yet cancelled
        releases its room. Finally the body is written to the row, unless the
        store refuses it (the room writes stay). A successful update keeps rooms
        free of double bookings when the stays are ordered, unless it
        reactivates a booking without the re-check. */
    method UpdateBooking(id: int, patch: BookingPatch) returns (out: Outcome<Booking>)
      requires Valid()
      modifies this
      ensures Valid()
      ensures nextRoomId == old(nextRoomId) && nextBookingId == old(nextBookingId)
      ensures out.Ok? || out.NotFound? || out.Conflict? || out == Failed(NullRoom) || out == Failed(ConstraintViolation)
      ensures out.NotFound? <==> id !in old(bookings)
      ensures out.NotFound? || out.Conflict? ==> rooms == old(rooms) && bookings == old(bookings)
      ensures out.Conflict? <==>
        id in old(bookings) && RechecksAvailability(patch) && UpdateConflicts(old(bookings), id, patch) != {}
      ensures out.Conflict? ==> out.ids == UpdateConflicts(old(bookings), id, patch)
      ensures out == Failed(NullRoom) <==>
        && id in old(bookings) && RechecksAvailability(patch) && UpdateConflicts(old(bookings), id, patch) == {}
        && !HasRoom(old(rooms), EffectiveRoom(old(bookings)[id], patch))
      ensures out == Failed(ConstraintViolation) <==>
        && id in old(bookings) && !out.Conflict? && out != Failed(NullRoom)
        && !StoreAccepts(old(rooms), guests, old(bookings), Some(id), ApplyPatch(old(bookings)[id], PricedPatch(old(rooms), old(bookings)[id], patch)))
      ensures out.Ok? || out.Failed? ==> id in old(bookings) && rooms == RoomsAfterUpdate(old(rooms), old(bookings)[id], patch)
      ensures !out.Ok? ==> bookings == old(bookings)
      ensures out.Ok? ==>
        && id in old(bookings)
        && out.value == ApplyPatch(old(bookings)[id], PricedPatch(old(rooms), old(bookings)[id], patch))
        && bookings == old(bookings)[id := out.value]
      ensures out.Ok? && NoDoubleBooking(old(bookings)) && DatesOrdered(old(bookings))
        && out.value.checkInDate <= out.value.checkOutDate && !ReactivatesUnchecked(old(bookings)[id], patch)
        ==> NoDoubleBooking(bookings) && DatesOrdered(bookings)
    {
      if id !in bookings {
        return NotFound;
      }
      assert forall k :: k in old(bookings) ==> old(bookings)[k].roomId != Some(0);
      var body := patch;
      if RechecksAvailability(patch) {
        var stop;
        stop, body := RecheckUpdate(id, patch);
        if stop.Some? {
          return stop.value;
        }
      }
      assert rooms.Keys == old(rooms).Keys;
      out := FinishUpdate(id, patch, body);
      if out.Ok? && NoDoubleBooking(old(bookings)) && DatesOrdered(old(bookings))
        && out.value.checkInDate <= out.value.checkOutDate && !ReactivatesUnchecked(old(bookings)[id], patch)
      {
        UpdateKeepsNoDoubleBooking(old(rooms), old(bookings), id, patch);
      }
    }

    /** The re-check phase of updateBooking, for a body that touches the
        schedule and does not cancel: the conflict query for the effective
        room and dates, then a move's status writes, then the repricing at the
        effective room's rate. It stops the request with a Conflict (nothing
        written) or with a NullRoom failure (after the move's writes), or
        hands on the body with its price replaced. */
    method RecheckUpdate(id: int, patch: BookingPatch) returns (stop: Option<Outcome<Booking>>, body: BookingPatch)
      requires Valid() && id in bookings && RechecksAvailability(patch)
      modifies this
      ensures Valid()
      ensures bookings == old(bookings) && nextRoomId == old(nextRoomId) && nextBookingId == old(nextBookingId)
      ensures UpdateConflicts(old(bookings), id, patch) != {} ==>
        stop == Some(Conflict(UpdateConflicts(old(bookings), id, patch))) && rooms == old(rooms)
      ensures UpdateConflicts(old(bookings), id, patch) == {} ==> rooms == RoomsAfterUpdate(old(rooms), old(bookings)[id], patch)
      ensures UpdateConflicts(old(bookings), id, patch) == {} && !HasRoom(old(rooms), EffectiveRoom(old(bookings)[id], patch)) ==>
        stop == Some(Failed(NullRoom))
      ensures UpdateConflicts(old(bookings), id, patch) == {} && HasRoom(old(rooms), EffectiveRoom(old(bookings)[id], patch)) ==>
        stop.None? && body == PricedPatch(old(rooms), old(bookings)[id], patch)
    {
      var booking := bookings[id];
      var checkIn := EffectiveCheckIn(booking, patch);
      var checkOut := EffectiveCheckOut(booking, patch);
      var roomId := EffectiveRoom(booking, patch);
      var conflicts := ConflictIds(bookings, roomId, checkIn, checkOut, Some(id));
      if conflicts != {} {
        return Some(Conflict(conflicts)), patch;
      }
      if MovesRoom(booking, patch) {
        MarkStatusKeepsTablesValid(rooms, bookings, guests, nextRoomId, nextBookingId, booking.roomId, Available);
        rooms := MarkStatus(rooms, booking.roomId, Available);
        MarkStatusKeepsTablesValid(rooms, bookings, guests, nextRoomId, nextBookingId, BodyRoom(patch), Reserved);
        rooms := MarkStatus(rooms, BodyRoom(patch), Reserved);
      }
      // The price is recomputed on this path whatever the body carries.
      if !HasRoom(rooms, roomId) {
        return Some(Failed(NullRoom)), patch;
      }
      body := patch.(totalPrice := Some(TotalPrice(rooms[roomId.value].pricePerNight, checkIn, checkOut)));
      stop := None;
    }

    /** The last phase of updateBooking: a cancellation of a booking not yet
        cancelled releases its room, then `body` is written to the row unless
        the store refuses it, in which case the room write stays. */
    method FinishUpdate(id: int, patch: BookingPatch, body: BookingPatch) returns (out: Outcome<Booking>)
      requires Valid() && id in bookings
      modifies this
      ensures Valid()
      ensures nextRoomId == old(nextRoomId) && nextBookingId == old(nextBookingId)
      ensures CancelsBooking(old(bookings)[id], patch) ==> rooms == MarkStatus(old(rooms), old(bookings)[id].roomId, Available)
      ensures !CancelsBooking(old(bookings)[id], patch) ==> rooms == old(rooms)
      ensures out.Ok? || out == Failed(ConstraintViolation)
      ensures out.Failed? <==> !StoreAccepts(old(rooms), guests, old(bookings), Some(id), ApplyPatch(old(bookings)[id], body))
      ensures out.Failed? ==> bookings == old(bookings)
      ensures out.Ok? ==> out.value == ApplyPatch(old(bookings)[id], body) && bookings == old(bookings)[id := out.value]
    {
      var booking := bookings[id];
      if CancelsBooking(booking, patch) {
        MarkStatusKeepsTablesValid(rooms, bookings, guests, nextRoomId, nextBookingId, booking.roomId, Available);
        rooms := MarkStatus(rooms, booking.roomId, Available);
      }
      var updated := ApplyPatch(booking, body);
      assert rooms.Keys == old(rooms).Keys;
      if !StoreAccepts(rooms, guests, bookings, Some(id), updated) {
        return Failed(ConstraintViolation);
      }
      WriteBookingKeepsTablesValid(rooms, bookings, guests, nextRoomId, nextBookingId, id, updated);
      bookings := bookings[id := updated];
      out := Ok(updated);
    }

    /** deleteBooking. A missing booking is NotFound and nothing changes.
        Otherwise its room, when it still has one, is set to Available whatever
        the booking's status, and exactly that booking is removed. */
    method DeleteBooking(id: int) returns (out: Outcome<()>)
      requires Valid()
      modifies this
      ensures Valid()
      ensures nextRoomId == old(nextRoomId) && nextBookingId == old(nextBookingId)
      ensures out.Ok? || out.NotFound?
      ensures out.NotFound? <==> id !in old(bookings)
      ensures out.NotFound? ==> rooms == old(rooms) && bookings == old(bookings)
      ensures out.Ok? ==>
        && bookings == old(bookings) - {id}
        && rooms == MarkStatus(old(rooms), old(bookings)[id].roomId, Available)
      ensures NoDoubleBooking(old(bookings)) ==> NoDoubleBooking(bookings)
      ensures DatesOrdered(old(bookings)) ==> DatesOrdered(bookings)
    {
      if id !in bookings {
        return NotFound;
      }
      var booking := bookings[id];
      MarkStatusKeepsTablesValid(rooms, bookings, guests, nextRoomId, nextBookingId, booking.roomId, Available);
      rooms := MarkStatus(rooms, booking.roomId, Available);
      RemoveBookingKeepsTablesValid(rooms, bookings, guests, nextRoomId, nextBookingId, id);
      if NoDoubleBooking(bookings) {
        RemovePreservesNoDoubleBooking(bookings, id);
      }
      bookings := bookings - {id};
      out := Ok(());
    }

    /** getBookingsByGuest: every booking of the guest, and nothing else. */
    function BookingsByGuest(guestId: int): (r: map<int, Booking>)
      reads this
      ensures forall id :: id in r <==> id in bookings && bookings[id].guestId == Some(guestId)
      ensures forall id :: id in r ==> r[id] == bookings[id]
    {
      map id | id in bookings && bookings[id].guestId == Some(guestId) :: bookings[id]
    }

    // -------------------------------------------------------------------------
    // roomController.js
    // -------------------------------------------------------------------------

    /** getRoomById: the room, or NotFound. */
    function RoomById(id: int): (out: Outcome<Room>)
      reads this
      ensures out.Ok? || out.NotFound?
      ensures out.NotFound? <==> id !in rooms
      ensures out.Ok? ==> out.value == rooms[id]
    {
      if id in rooms then Ok(rooms[id]) else NotFound
    }

    /** createRoom: `Room.create(body)` with the column defaults, under a fresh
        id, unless the store refuses the row. */
    method CreateRoom(input: RoomInput) returns (out: Outcome<int>)
      requires Valid()
      modifies this
      ensures Valid()
      ensures bookings == old(bookings) && nextBookingId == old(nextBookingId)
      ensures out.Ok? || out == Failed(ConstraintViolation)
      ensures out.Ok? <==> StoreAcceptsRoom(old(rooms), None, NewRoom(input))
      ensures !out.Ok? ==> rooms == old(rooms)
      ensures out.Ok? ==> out.value !in old(rooms) && rooms == old(rooms)[out.value := NewRoom(input)]
    {
      var room := NewRoom(input);
      if !StoreAcceptsRoom(rooms, None, room) {
        return Failed(ConstraintViolation);
      }
      var id := nextRoomId;
      InsertRoomKeepsTablesValid(rooms, bookings, guests, nextRoomId, nextBookingId, room);
      rooms := rooms[id := room];
      nextRoomId := nextRoomId + 1;
      out := Ok(id);
    }

    /** updateRoom: NotFound for a missing room; otherwise the body is written
        to that room alone, unless the store refuses it. Bookings are never
        touched: this is the manual path by which a status such as Maintenance
        is set. */
    method UpdateRoom(id: int, patch: RoomPatch) returns (out: Outcome<Room>)
      requires Valid()
      modifies this
      ensures Valid()
      ensures bookings == old(bookings) && nextRoomId == old(nextRoomId) && nextBookingId == old(nextBookingId)
      ensures out.Ok? || out.NotFound? || out == Failed(ConstraintViolation)
      ensures out.NotFound? <==> id !in old(rooms)
      ensures out.Failed? <==> id in old(rooms) && !StoreAcceptsRoom(old(rooms), Some(id), ApplyRoomPatch(old(rooms)[id], patch))
      ensures !out.Ok? ==> rooms == old(rooms)
      ensures out.Ok? ==>
        && id in old(rooms)
        && out.value == ApplyRoomPatch(old(rooms)[id], patch)
        && rooms == old(rooms)[id := out.value]
    {
      if id !in rooms {
        return NotFound;
      }
      var room := ApplyRoomPatch(rooms[id], patch);
      if !StoreAcceptsRoom(rooms, Some(id), room) {
        return Failed(ConstraintViolation);
      }
      WriteRoomKeepsTablesValid(rooms, bookings, guests, nextRoomId, nextBookingId, id, room);
      rooms := rooms[id := room];
      out := Ok(room);
    }

    /** deleteRoom: NotFound for a missing room; otherwise exactly that room is
        removed, and the bookings that held it keep their rows with a null
        room (ON DELETE SET NULL). */
    method DeleteRoom(id: int) returns (out: Outcome<()>)
      requires Valid()
      modifies this
      ensures Valid()
      ensures nextRoomId == old(nextRoomId) && nextBookingId == old(nextBookingId)
      ensures out.Ok? || out.NotFound?
      ensures out.NotFound? <==> id !in old(rooms)
      ensures out.NotFound? ==> rooms == old(rooms) && bookings == old(bookings)
      ensures out.Ok? ==> rooms == old(rooms) - {id} && bookings == DetachRoom(old(bookings), id)
      ensures NoDoubleBooking(old(bookings)) ==> NoDoubleBooking(bookings)
      ensures DatesOrdered(old(bookings)) ==> DatesOrdered(bookings)
    {
      if id !in rooms {
        return NotFound;
      }
      RemoveRoomKeepsTablesValid(rooms, bookings, guests, nextRoomId, nextBookingId, id);
      if NoDoubleBooking(bookings) {
        DetachPreservesNoDoubleBooking(bookings, id);
      }
      rooms := rooms - {id};
      bookings := DetachRoom(bookings, id);
      out := Ok(());
    }

    /** getAvailableRooms, as the filter is written to work (the source file
        does not import `Op`, so the query itself throws before it runs): a
        400 when a date is missing; otherwise exactly the rooms that are
        Available and that no booking, of whatever status, overlaps. */
    function AvailableRooms(checkIn: Option<int>, checkOut: Option<int>): (out: Outcome<set<int>>)
      reads this
      ensures out.Ok? || out == Failed(MissingDates)
      ensures out.Failed? <==> checkIn.None? || checkOut.None?
      ensures out.Ok? ==> forall id :: id in out.value ==> id in rooms && rooms[id].status == Available
      ensures out.Ok? ==> forall k ::
        (k in bookings && bookings[k].roomId.Some?
         && Overlaps(bookings[k].checkInDate, bookings[k].checkOutDate, checkIn.value, checkOut.value))
        ==> bookings[k].roomId.value !in out.value
      ensures out.Ok? ==> forall id ::
        (id in rooms && rooms[id].status == Available && Unbooked(bookings, id, checkIn.value, checkOut.value))
        ==> id in out.value
    {
      if checkIn.None? || checkOut.None? then Failed(MissingDates)
      else Ok(AvailableRoomIds(rooms, bookings, checkIn.value, checkOut.value))
    }
  }
}

=== FILE: pricing.dfy ===
/** Price derivation of the booking controller: the number of nights charged for a
    stay and the total price, in cents; and the range of a DECIMAL(10,2) column. */
module Pricing {

  /** 1000 * 60 * 60 * 24 milliseconds. */
  const MsPerDay: int := 86_400_000

  /** `Math.ceil((checkOut - checkIn) / MsPerDay)` on instants in milliseconds.
      Dafny's `/` floors for a positive divisor, so the ceiling is the negated
      floor of the negated difference. The result is the one whole number of
      days whose span first reaches the length of the stay. There is no guard:
      a stay of zero length gives 0 and a stay that ends before it starts gives
      a negative count. */
  function Nights(checkIn: int, checkOut: int): (n: int)
    ensures (n - 1) * MsPerDay < checkOut - checkIn <= n * MsPerDay
  {
    -((checkIn - checkOut) / MsPerDay)
  }

  /** `room.pricePerNight * durationInDays`, in cents. At a positive rate the
      price is positive exactly when the stay ends after it starts; at a
      non-negative rate a stay that does not end after it starts costs
      nothing or a negative amount. */
  function TotalPrice(pricePerNight: int, checkIn: int, checkOut: int): (r: int)
    ensures pricePerNight > 0 ==> (r > 0 <==> checkOut > checkIn)
    ensures pricePerNight >= 0 && checkOut <= checkIn ==> r <= 0
  {
    NightsPositiveIff(checkIn, checkOut);
    pricePerNight * Nights(checkIn, checkOut)
  }

  /** The characterisation of the ceiling fixes the count: any whole number
      whose span of days brackets the stay the same way is the count. */
  lemma NightsUnique(checkIn: int, checkOut: int, n: int)
    requires (n - 1) * MsPerDay < checkOut - checkIn <= n * MsPerDay
    ensures Nights(checkIn, checkOut) == n
  {
    var m := Nights(checkIn, checkOut);
    assert m < n ==> m * MsPerDay <= (n - 1) * MsPerDay;
    assert m > n ==> n * MsPerDay <= (m - 1) * MsPerDay;
  }

  /** A stay of exactly k days is charged k nights. */
  lemma NightsOfWholeDays(checkIn: int, k: int)
    ensures Nights(checkIn, checkIn + k * MsPerDay) == k
  {
    NightsUnique(checkIn, checkIn + k * MsPerDay, k);
  }

  /** A started day is charged in full: k days and any part of one more are k + 1 nights. */
  lemma PartialDayChargedInFull(checkIn: int, k: int, extra: int)
    requires 0 < extra < MsPerDay
    ensures Nights(checkIn, checkIn + k * MsPerDay + extra) == k + 1
  {
    NightsUnique(checkIn, checkIn + k * MsPerDay + extra, k + 1);
  }

  /** At least one night is charged exactly when the stay ends after it starts;
      the server never checks this. */
  lemma NightsPositiveIff(checkIn: int, checkOut: int)
    ensures Nights(checkIn, checkOut) > 0 <==> checkOut > checkIn
  {
    var n := Nights(checkIn, checkOut);
    if n <= 0 {
      assert n * MsPerDay <= 0;
    }
  }

  /** The worked example: a 100.00 rate for three whole days is 300.00. */
  lemma ThreeNightsAtOneHundred(checkIn: int)
    ensures TotalPrice(10000, checkIn, checkIn + 3 * MsPerDay) == 30000
  {
    NightsOfWholeDays(checkIn, 3);
  }

  /** A DECIMAL(10,2) column holds values of at most ten digits, two after the
      point: in cents, strictly between -10^10 and 10^10. */
  predicate FitsDecimal(cents: int) {
    -10_000_000_000 < cents < 10_000_000_000
  }
}

=== FILE: rooms.dfy ===
/** The rooms table (server/models/Room.js): its columns, the status enumeration,
    the default values applied on insert, and the field-wise update of a row. */
module Rooms {
  import opened Wrappers

  /** The `status` ENUM. */
  datatype RoomStatus = Available | Occupied | Maintenance | Reserved

  /** A row of the rooms table. The primary key `id` is the key of the table map
      that holds the row. Money is in cents, since the column is DECIMAL(10,2). */
  datatype Room = Room(
    roomNumber: string,
    roomType: string,
    pricePerNight: int,
    capacity: int,
    description: Option<string>,
    status: RoomStatus,
    floor: Option<int>,
    hasWifi: bool,
    hasTV: bool,
    hasAirCon: bool,
    hasBalcony: bool,
    images: Option<seq<string>>)

  /** The body of a create request. The NOT NULL columns without a default
      (roomNumber, type, pricePerNight) are always present; the others may be
      left out and then take their default. */
  datatype RoomInput = RoomInput(
    roomNumber: string,
    roomType: string,
    pricePerNight: int,
    capacity: Option<int>,
    description: Option<string>,
    status: Option<RoomStatus>,
    floor: Option<int>,
    hasWifi: Option<bool>,
    hasTV: Option<bool>,
    hasAirCon: Option<bool>,
    hasBalcony: Option<bool>,
    images: Option<seq<string>>)

  /** The body of an update request: `None` is a field the body does not carry.
      Nullable columns carry `Some(None)` when the body sets them to null. */
  datatype RoomPatch = RoomPatch(
    roomNumber: Option<string>,
    roomType: Option<string>,
    pricePerNight: Option<int>,
    capacity: Option<int>,
    description: Option<Option<string>>,
    status: Option<RoomStatus>,
    floor: Option<Option<int>>,
    hasWifi: Option<bool>,
    hasTV: Option<bool>,
    hasAirCon: Option<bool>,
    hasBalcony: Option<bool>,
    images: Option<Option<seq<string>>>)

  /** A patch that carries no field. */
  const EmptyRoomPatch := RoomPatch(None, None, None, None, None, None, None, None, None, None, None, None)

  /** The row `Room.create` inserts: supplied values win, absent ones take the
      column defaults (capacity 1, status Available, wifi, TV and air-con on,
      no balcony). */
  function NewRoom(input: RoomInput): (r: Room)
    ensures r.roomNumber == input.roomNumber && r.roomType == input.roomType
    ensures r.pricePerNight == input.pricePerNight
    ensures input.capacity.None? ==> r.capacity == 1
    ensures input.status.None? ==> r.status == Available
    ensures input.hasWifi.None? ==> r.hasWifi
    ensures input.hasTV.None? ==> r.hasTV
    ensures input.hasAirCon.None? ==> r.hasAirCon
    ensures input.hasBalcony.None? ==> !r.hasBalcony
    ensures input.capacity.Some? ==> r.capacity == input.capacity.value
    ensures input.status.Some? ==> r.status == input.status.value
    ensures input.hasWifi.Some? ==> r.hasWifi == input.hasWifi.value
    ensures input.hasTV.Some? ==> r.hasTV == input.hasTV.value
    ensures input.hasAirCon.Some? ==> r.hasAirCon == input.hasAirCon.value
    ensures input.hasBalcony.Some? ==> r.hasBalcony == input.hasBalcony.value
    ensures r.description == input.description && r.floor == input.floor && r.images == input.images
  {
    Room(
      input.roomNumber,
      input.roomType,
      input.pricePerNight,
      input.capacity.GetOr(1),
      input.description,
      input.status.GetOr(Available),
      input.floor,
      input.hasWifi.GetOr(true),
      input.hasTV.GetOr(true),
      input.hasAirCon.GetOr(true),
      input.hasBalcony.GetOr(false),
      input.images)
  }

  /** `room.update(body)`: every field the body carries is overwritten, every
      other field keeps its value. */
  function ApplyRoomPatch(room: Room, p: RoomPatch): (r: Room)
    ensures p.roomNumber.Some? ==> r.roomNumber == p.roomNumber.value
    ensures p.roomType.Some? ==> r.roomType == p.roomType.value
    ensures p.pricePerNight.Some? ==> r.pricePerNight == p.pricePerNight.value
    ensures p.capacity.Some? ==> r.capacity == p.capacity.value
    ensures p.description.Some? ==> r.description == p.description.value
    ensures p.status.Some? ==> r.status == p.status.value
    ensures p.floor.Some? ==> r.floor == p.floor.value
    ensures p.hasWifi.Some? ==> r.hasWifi == p.hasWifi.value
    ensures p.hasTV.Some? ==> r.hasTV == p.hasTV.value
    ensures p.hasAirCon.Some? ==> r.hasAirCon == p.hasAirCon.value
    ensures p.hasBalcony.Some? ==> r.hasBalcony == p.hasBalcony.value
    ensures p.images.Some? ==> r.images == p.images.value
    ensures p.roomNumber.None? ==> r.roomNumber == room.roomNumber
    ensures p.roomType.None? ==> r.roomType == room.roomType
    ensures p.pricePerNight.None? ==> r.pricePerNight == room.pricePerNight
    ensures p.capacity.None? ==> r.capacity == room.capacity
    ensures p.description.None? ==> r.description == room.description
    ensures p.status.None? ==> r.status == room.status
    ensures p.floor.None? ==> r.floor == room.floor
    ensures p.hasWifi.None? ==> r.hasWifi == room.hasWifi
    ensures p.hasTV.None? ==> r.hasTV == room.hasTV
    ensures p.hasAirCon.None? ==> r.hasAirCon == room.hasAirCon
    ensures p.hasBalcony.None? ==> r.hasBalcony == room.hasBalcony
    ensures p.images.None? ==> r.images == room.images
  {
    Room(
      p.roomNumber.GetOr(room.roomNumber),
      p.roomType.GetOr(room.roomType),
      p.pricePerNight.GetOr(room.pricePerNight),
      p.capacity.GetOr(room.capacity),
      p.description.GetOr(room.description),
      p.status.GetOr(room.status),
      p.floor.GetOr(room.floor),
      p.hasWifi.GetOr(room.hasWifi),
      p.hasTV.GetOr(room.hasTV),
      p.hasAirCon.GetOr(room.hasAirCon),
      p.hasBalcony.GetOr(room.hasBalcony),
      p.images.GetOr(room.images))
  }

  /** Writing the same body twice leaves the row as writing it once. */
  lemma RoomPatchTwiceIsPatchOnce(room: Room, p: RoomPatch)
    ensures ApplyRoomPatch(ApplyRoomPatch(room, p), p) == ApplyRoomPatch(room, p)
  {
  }

  /** A body that carries only `status` changes the status and nothing else:
      the manual path by which a room is put into (or taken out of) Maintenance. */
  lemma StatusOnlyPatch(r: Room, s: RoomStatus)
    ensures ApplyRoomPatch(r, EmptyRoomPatch.(status := Some(s))) == r.(status := s)
  {
  }

  /** A body that carries nothing leaves the row as it was. */
  lemma EmptyRoomPatchKeepsRoom(r: Room)
    ensures ApplyRoomPatch(r, EmptyRoomPatch) == r
  {
  }

  /** `roomNumber` is declared unique: no two rows share one. */
  ghost predicate UniqueRoomNumbers(rooms: map<int, Room>) {
    forall i, j :: i in rooms && j in rooms && i != j ==> rooms[i].roomNumber != rooms[j].roomNumber
  }

  /** Some row other than `except` already holds `number`: the unique index
      would refuse a row with it. */
  predicate RoomNumberTaken(rooms: map<int, Room>, number: string, except: Option<int>) {
    exists k :: k in rooms && except != Some(k) && rooms[k].roomNumber == number
  }

  /** Writing a row whose number is not taken by another row keeps the numbers unique. */
  lemma StoreKeepsRoomNumbersUnique(rooms: map<int, Room>, id: int, r: Room)
    requires UniqueRoomNumbers(rooms)
    requires !RoomNumberTaken(rooms, r.roomNumber, Some(id))
    ensures UniqueRoomNumbers(rooms[id := r])
  {
  }
}

=== FILE: scenarios.dfy ===
/** Request sequences against a fresh store, each ending in a state the
    controllers' contracts pin down: the ordinary reserve / refuse / cancel /
    rebook flow, and the sequences by which the server double books a room or
    leaves a room's status out of step with its bookings. */
module Scenarios {
  import opened Wrappers
  import opened Rooms
  import opened Bookings
  import opened Pricing
  import opened Availability
  import opened Controllers

  /** A double room at 100.00 a night, all other columns left to their defaults. */
  function DoubleRoom(number: string): RoomInput {
    RoomInput(number, "Double", 10000, None, None, None, None, None, None, None, None, None)
  }

  /** A create body for guest 1 with the given room, dates and reference. */
  function Stay(roomId: int, checkIn: int, checkOut: int, reference: string): BookingInput {
    BookingInput(Some(1), Some(roomId), checkIn, checkOut, None, None, None, None, None, None, Some(reference))
  }

  /** A store holding one fresh double room, and that room's id. */
  method HotelWithOneRoom() returns (h: Hotel, roomId: int)
    ensures fresh(h) && h.Valid() && h.guests == {1}
    ensures h.bookings == map[] && h.rooms == map[roomId := NewRoom(DoubleRoom("101"))]
  {
    h := new Hotel({1});
    var created := h.CreateRoom(DoubleRoom("101"));
    assert !RoomNumberTaken(map[], "101", None);
    roomId := created.value;
  }

  /** A store holding one double room with one confirmed booking on it for
      `[checkIn, checkOut]` under reference "A". */
  method HotelWithOneBooking(checkIn: int, checkOut: int) returns (h: Hotel, roomId: int, bookingId: int)
    requires FitsDecimal(TotalPrice(10000, checkIn, checkOut))
    ensures fresh(h) && h.Valid() && h.guests == {1}
    ensures h.bookings == map[bookingId := NewBooking(Stay(roomId, checkIn, checkOut, "A"), TotalPrice(10000, checkIn, checkOut), 0, 0)]
    ensures h.rooms == map[roomId := NewRoom(DoubleRoom("101")).(status := Reserved)]
  {
    h, roomId := HotelWithOneRoom();
    assert ConflictIds(map[], Some(roomId), checkIn, checkOut, None) == {};
    assert !ReferenceTaken(map[], "A", None);
    var created := h.CreateBooking(Stay(roomId, checkIn, checkOut, "A"), 0, 0);
    bookingId := created.value;
  }

  /** Cancelling the one booking of a store built by `HotelWithOneBooking` sets
      its room back to Available and keeps the row, now Cancelled. */
  method CancelOnlyBooking(h: Hotel, roomId: int, bookingId: int, checkIn: int, checkOut: int)
    requires FitsDecimal(TotalPrice(10000, checkIn, checkOut))
    requires h.Valid() && h.guests == {1}
    requires h.bookings == map[bookingId := NewBooking(Stay(roomId, checkIn, checkOut, "A"), TotalPrice(10000, checkIn, checkOut), 0, 0)]
    requires h.rooms == map[roomId := NewRoom(DoubleRoom("101")).(status := Reserved)]
    modifies h
    ensures h.Valid() && h.guests == {1}
    ensures h.bookings == map[bookingId := old(h.bookings[bookingId]).(bookingStatus := Cancelled)]
    ensures h.rooms == map[roomId := NewRoom(DoubleRoom("101")).(status := Available)]
  {
    var cancel := EmptyPatch.(bookingStatus := Some(Cancelled));
    ghost var row := h.bookings[bookingId];
    assert PricedPatch(h.rooms, row, cancel) == cancel;
    assert !ReferenceTaken(h.bookings, "A", Some(bookingId));
    var cancelled := h.UpdateBooking(bookingId, cancel);
    assert cancelled.Ok?;
  }

  /** The ordinary flow: a three-night stay at 100.00 costs 300.00 and reserves
      the room; a stay inside it is refused naming the first booking;
      cancelling the first booking frees the room; the same dates can then be
      booked again. */
  method ReserveRefuseCancelRebook(day0: int)
    returns (first: int, price: int, reserved: RoomStatus, clash: Outcome<int>, freed: RoomStatus, rebook: Outcome<int>)
    ensures price == 30000 && reserved == Reserved
    ensures clash == Conflict({first})
    ensures rebook.Ok? && rebook.value != first
    ensures freed == Available
  {
    ThreeNightsAtOneHundred(day0);
    var h, roomId;
    h, roomId, first := HotelWithOneBooking(day0, day0 + 3 * MsPerDay);
    price := h.bookings[first].totalPrice;
    reserved := h.rooms[roomId].status;

    var inner := Stay(roomId, day0 + MsPerDay, day0 + 2 * MsPerDay, "B");
    assert first in ConflictIds(h.bookings, Some(roomId), inner.checkInDate, inner.checkOutDate, None);
    assert ConflictIds(h.bookings, Some(roomId), inner.checkInDate, inner.checkOutDate, None) == {first};
    clash := h.CreateBooking(inner, 0, 0);

    CancelOnlyBooking(h, roomId, first, day0, day0 + 3 * MsPerDay);
    freed := h.rooms[roomId].status;

    var again := Stay(roomId, day0, day0 + 3 * MsPerDay, "C");
    assert ConflictIds(h.bookings, Some(roomId), day0, day0 + 3 * MsPerDay, None) == {};
    assert !ReferenceTaken(h.bookings, "C", None);
    rebook := h.CreateBooking(again, 0, 0);
  }

  /** A stay that starts on the day another one ends is refused: the
      conflict query's clauses are inclusive. */
  method SameDayTurnoverRefused(day0: int) returns (clash: Outcome<int>)
    ensures clash.Conflict?
  {
    NightsOfWholeDays(day0, 2);
    var h, roomId, first := HotelWithOneBooking(day0, day0 + 2 * MsPerDay);
    assert first in ConflictIds(h.bookings, Some(roomId), day0 + 2 * MsPerDay, day0 + 4 * MsPerDay, None);
    clash := h.CreateBooking(Stay(roomId, day0 + 2 * MsPerDay, day0 + 4 * MsPerDay, "B"), 0, 0);
  }

  /** Setting a cancelled booking back to Confirmed runs no re-check: after
      another stay has taken its dates, the reactivation succeeds and the room
      is double booked. */
  method ReactivationDoubleBooks(day0: int) returns (h: Hotel)
    ensures h.Valid() && !NoDoubleBooking(h.bookings)
  {
    ThreeNightsAtOneHundred(day0);
    var roomId, first;
    h, roomId, first := HotelWithOneBooking(day0, day0 + 3 * MsPerDay);
    ghost var row := h.bookings[first];
    CancelOnlyBooking(h, roomId, first, day0, day0 + 3 * MsPerDay);

    NightsOfWholeDays(day0 + MsPerDay, 1);
    assert ConflictIds(h.bookings, Some(roomId), day0 + MsPerDay, day0 + 2 * MsPerDay, None) == {};
    assert !ReferenceTaken(h.bookings, "B", None);
    var second := h.CreateBooking(Stay(roomId, day0 + MsPerDay, day0 + 2 * MsPerDay, "B"), 0, 0);

    var confirm := EmptyPatch.(bookingStatus := Some(Confirmed));
    assert PricedPatch(h.rooms, h.bookings[first], confirm) == confirm;
    assert h.bookings[second.value].bookingReference == "B";
    assert !ReferenceTaken(h.bookings, "A", Some(first));
    var reactivated := h.UpdateBooking(first, confirm);
    assert reactivated.Ok? && h.bookings[first] == row;
    assert first in h.bookings && second.value in h.bookings && first != second.value;
    assert Conflicts(h.bookings[first], h.bookings[second.value].roomId,
      h.bookings[second.value].checkInDate, h.bookings[second.value].checkOutDate);
  }

  /** Dates are never checked for order. A stay stored as [day 10, day 0] does
      not block [day 5, day 5], so both are accepted, and the room is then
      double booked. The reversed stay is charged minus ten nights. */
  method ReversedDatesDoubleBook(day0: int) returns (h: Hotel, reversedPrice: int)
    ensures h.Valid() && !NoDoubleBooking(h.bookings)
    ensures reversedPrice == -100000
  {
    NightsOfWholeDays(day0 + 10 * MsPerDay, -10);
    var roomId, first;
    h, roomId, first := HotelWithOneBooking(day0 + 10 * MsPerDay, day0);
    reversedPrice := h.bookings[first].totalPrice;

    var mid := day0 + 5 * MsPerDay;
    NightsOfWholeDays(mid, 0);
    assert ConflictIds(h.bookings, Some(roomId), mid, mid, None) == {};
    assert !ReferenceTaken(h.bookings, "B", None);
    var second := h.CreateBooking(Stay(roomId, mid, mid, "B"), 0, 0);
    assert first in h.bookings && second.value in h.bookings && first != second.value;
    assert Conflicts(h.bookings[second.value], h.bookings[first].roomId,
      h.bookings[first].checkInDate, h.bookings[first].checkOutDate);
  }

  /** Moving a booking to a room that does not exist fails, but only after
      the old room has been set to Available: the booking still holds that
      room while the room reads as free. */
  method MoveToMissingRoomFreesOldRoom(day0: int) returns (out: Outcome<Booking>, status: RoomStatus, heldBy: Option<int>, roomId: int)
    ensures out == Failed(NullRoom)
    ensures status == Available && heldBy == Some(roomId)
  {
    ThreeNightsAtOneHundred(day0);
    var h, first;
    h, roomId, first := HotelWithOneBooking(day0, day0 + 3 * MsPerDay);
    var move := EmptyPatch.(roomId := Some(Some(roomId + 1)));
    assert ConflictIds(h.bookings, Some(roomId + 1), day0, day0 + 3 * MsPerDay, Some(first)) == {};
    out := h.UpdateBooking(first, move);
    status := h.rooms[roomId].status;
    heldBy := h.bookings[first].roomId;
  }

  /** A create body without a reference is refused by validation, which runs
      before the hook that would generate one: nothing is stored and the room
      keeps its status. An empty reference, by contrast, is replaced. */
  method MissingReferenceRefused(day0: int) returns (missing: Outcome<int>, empty: Outcome<int>, reference: string)
    ensures missing == Failed(NotNullViolation)
    ensures empty.Ok? && |reference| >= 3 && reference[..3] == "BK-"
  {
    ThreeNightsAtOneHundred(day0);
    var h, roomId := HotelWithOneRoom();
    var body := Stay(roomId, day0, day0 + 3 * MsPerDay, "");
    missing := h.CreateBooking(body.(bookingReference := None), 0, 0);
    assert h.bookings == map[];
    assert !ReferenceTaken(h.bookings, GeneratedReference(0, 0), None);
    empty := h.CreateBooking(body, 0, 0);
    reference := h.bookings[empty.value].bookingReference;
  }

  /** A guest id that names no row of the guests table breaks the foreign key:
      the create fails and nothing changes. */
  method UnknownGuestRefused(day0: int) returns (out: Outcome<int>, nothingStored: bool)
    ensures out == Failed(ConstraintViolation) && nothingStored
  {
    ThreeNightsAtOneHundred(day0);
    var h, roomId := HotelWithOneRoom();
    ghost var rooms := h.rooms;
    out := h.CreateBooking(Stay(roomId, day0, day0 + 3 * MsPerDay, "A").(guestId := Some(2)), 0, 0);
    nothingStored := h.bookings == map[];
    assert h.rooms == rooms;
  }

  /** Deleting a room keeps its bookings, with their room set to null; an
      update that touches the dates of such a booking then fails when the
      price is recomputed. */
  method DeletedRoomDetachesBooking(day0: int) returns (heldBy: Option<int>, kept: bool, moved: Outcome<Booking>)
    ensures heldBy.None? && kept
    ensures moved == Failed(NullRoom)
  {
    ThreeNightsAtOneHundred(day0);
    var h, roomId, first := HotelWithOneBooking(day0, day0 + 3 * MsPerDay);
    var deleted := h.DeleteRoom(roomId);
    kept := first in h.bookings;
    heldBy := h.bookings[first].roomId;
    var later := EmptyPatch.(checkOutDate := Some(day0 + 4 * MsPerDay));
    assert UpdateConflicts(h.bookings, first, later) == {};
    moved := h.UpdateBooking(first, later);
  }

  /** An update body with `roomId: null` is falsy for the controller, so it
      runs no re-check and writes no room status, yet `booking.update` stores
      the null: the booking leaves its room, the room stays Reserved, and the
      same room and dates can then be booked again. */
  method NullRoomBodyDetaches(day0: int) returns (out: Outcome<Booking>, heldBy: Option<int>, status: RoomStatus, rebook: Outcome<int>)
    ensures out.Ok? && heldBy.None?
    ensures status == Reserved
    ensures rebook.Ok?
  {
    ThreeNightsAtOneHundred(day0);
    var h, roomId, first := HotelWithOneBooking(day0, day0 + 3 * MsPerDay);
    var detach := EmptyPatch.(roomId := Some(None));
    assert PricedPatch(h.rooms, h.bookings[first], detach) == detach;
    assert !ReferenceTaken(h.bookings, "A", Some(first));
    out := h.UpdateBooking(first, detach);
    heldBy := h.bookings[first].roomId;
    status := h.rooms[roomId].status;

    assert ConflictIds(h.bookings, Some(roomId), day0, day0 + 3 * MsPerDay, None) == {};
    assert !ReferenceTaken(h.bookings, "B", None);
    rebook := h.CreateBooking(Stay(roomId, day0, day0 + 3 * MsPerDay, "B"), 0, 0);
  }

  /** A create body with `roomId: null` sends the conflict query as `roomId IS
      NULL`: a detached booking on overlapping dates is reported as a conflict;
      otherwise `findByPk(null)` finds no room and the answer is NotFound. */
  method NullRoomCreate(day0: int) returns (first: int, clash: Outcome<int>, missing: Outcome<int>)
    ensures clash == Conflict({first})
    ensures missing == NotFound
  {
    ThreeNightsAtOneHundred(day0);
    var h, roomId;
    h, roomId, first := HotelWithOneBooking(day0, day0 + 3 * MsPerDay);
    var deleted := h.DeleteRoom(roomId);
    var body := Stay(roomId, day0, day0 + 3 * MsPerDay, "B").(roomId := None);
    assert first in ConflictIds(h.bookings, None, day0, day0 + 3 * MsPerDay, None);
    assert ConflictIds(h.bookings, None, day0, day0 + 3 * MsPerDay, None) == {first};
    clash := h.CreateBooking(body, 0, 0);
    var later := body.(checkInDate := day0 + 5 * MsPerDay, checkOutDate := day0 + 6 * MsPerDay);
    assert ConflictIds(h.bookings, None, day0 + 5 * MsPerDay, day0 + 6 * MsPerDay, None) == {};
    missing := h.CreateBooking(later, 0, 0);
  }

  /** Reversed stays break the update's re-check as they break the create's:
      with [day 10, day 0] stored on one room, a stay [day 5, day 5] on a second
      room can be moved onto the first, no reactivation involved, and the first
      room is then double booked. */
  method MoveOntoReversedStayDoubleBooks(day0: int) returns (h: Hotel, moved: Outcome<Booking>)
    ensures moved.Ok? && h.Valid() && !NoDoubleBooking(h.bookings)
  {
    NightsOfWholeDays(day0 + 10 * MsPerDay, -10);
    var roomId, first;
    h, roomId, first := HotelWithOneBooking(day0 + 10 * MsPerDay, day0);
    assert !RoomNumberTaken(h.rooms, "102", None);
    var other := h.CreateRoom(DoubleRoom("102"));

    var mid := day0 + 5 * MsPerDay;
    NightsOfWholeDays(mid, 0);
    assert ConflictIds(h.bookings, Some(other.value), mid, mid, None) == {};
    assert !ReferenceTaken(h.bookings, "B", None);
    var second := h.CreateBooking(Stay(other.value, mid, mid, "B"), 0, 0);

    var move := EmptyPatch.(roomId := Some(Some(roomId)));
    assert UpdateConflicts(h.bookings, second.value, move) == {};
    assert h.bookings[second.value].bookingReference == "B";
    assert !ReferenceTaken(h.bookings, "B", Some(second.value));
    moved := h.UpdateBooking(second.value, move);
    assert first in h.bookings && second.value in h.bookings && first != second.value;
    assert Conflicts(h.bookings[second.value], h.bookings[first].roomId,
      h.bookings[first].checkInDate, h.bookings[first].checkOutDate);
  }
}

=== FILE: wrappers.dfy ===
/** Option, for fields a request body may leave out and lookups that may find nothing. */
module Wrappers {

  datatype Option<+T> = None | Some(value: T) {

    /** The value, or `default` when there is none (JavaScript's `x || default` on a present/absent field). */
    function GetOr(default: T): T {
      match this
      case Some(v) => v
      case None => default
    }
  }
}
